=== FILE: README.md ===
# ITAS account and authorisation core, in Dafny

ITAS is a small web application. Its Express backend keeps user accounts in a
JSON file and runs the account lifecycle:

- registration and password login;
- TOTP two-factor enrolment and login;
- password reset by e-mailed token;
- a reviewer gate through which an admin or employer approves the role a
  user asked for, either by a one-click e-mailed link or through two admin
  endpoints.

A second JSON store holds each developer's demo tasks, task logs and daily
log entries. The Vue client guards its routes on the stored session flags.

This project models that core as pure functions and proves properties of
them. Each module follows one part of the program:

| module | models |
|---|---|
| `Common` | `Option`, HTTP status codes, JavaScript truthiness of optional strings, first-match search |
| `Text` | `toLowerCase` for e-mail comparison; `trim` with the ECMAScript white-space set |
| `Db` | the user store of `db.js`, as a `seq<User>` |
| `Tokens` | JWTs as `Signed(key, claims, exp)`; the four lifetimes; `Bearer ` parsing |
| `Auth` | every `/api/auth` handler as `(store, request, now) -> (reply, store')` |
| `RoleGuard` | the `requireRole` middleware |
| `Html` | `escapeHtml` |
| `Admin` | the role-action link and the two admin role endpoints |
| `DevStore` | `db.dev.js`, the per-user task and daily-log store |
| `DevRoutes` | `routes.dev.js`: its middleware, the summary score and the task and daily-log handlers |
| `RouterGuard` | the client's `router.beforeEach` |
| `Invariants` | store-wide facts kept by every auth and admin request from the empty store on |

Time is a millisecond `int` that every handler receives as `now`. JWT
expiry is checked the way `jsonwebtoken` does it: a token is valid while
`now / 1000 < exp`. The key a token was signed with stands for its secret.
The access secret, the refresh secret and the action-link secret are
modelled; the 2FA stage token is signed with the access secret.

Values that come from outside arrive as parameters:

- password hashes, ids, TOTP secrets and reset tokens are values;
- `bcrypt.compare` is a function `(password, hash) -> bool`;
- `speakeasy.totp.verify` is a function `(secret, code, now) -> bool`;
- reading a presented token string is a function `string -> Jwt`.

A request body field that is absent is the empty string, which is falsy
just as `undefined` is. The one exception is the `code` of `/2fa/verify`:
there an absent code goes straight to `speakeasy.totp.verify`, which throws,
and with no `try` around the call the request fails with 500 and changes
nothing. The model answers that request 400 with no change.

The model follows the code in these places, where the code departs from
the intended design:

- `/register` issues session tokens and answers `requires2FASetup: true`.
  It does not read a requested role, so `requestedRole` stays `client`.
  It sends no mail.
- `/login` ignores any role hint.
- `/login` never writes `twoFASetupRequired`. Nothing else sets it either,
  so on every reachable store its "setup required" branch is dead code
  (`Invariants.LoginOnValidStore`).
- `/2fa/verify` has no "already enabled" conflict answer.
  - When nothing is staged it answers 400.
  - `/2fa/login` does not normalise the code; the TOTP check receives it
    as sent.
- The 2FA stage token is signed with the access-token secret, so
  `verifyAccess` accepts it.
  - Within its three minutes it opens `/2fa/setup` without a TOTP code
    (`Auth.StageTokenOpensSetup`), and also `/me` and the dashboard routes.
  - Any `requireRole` with an empty allow-list passes it
    (`RoleGuard.StageTokenPassesOnlyOpenGuards`).
- `/reset` answers the same 400 for an unknown token and an expired one.

## Model

| member | source | states |
|---|---|---|
| `Text.SameIgnoringCaseIsEquivalence` | itas-backend/src/db.js:31 | comparing lower-cased e-mails is reflexive, symmetric and transitive, so a match does not depend on which side was typed |
| `Text.Trim` | itas-backend/src/routes.dev.js:67 | the result is a contiguous part of the text, with only ECMAScript white space cut off on either side; it is empty exactly when the text is all white space, and otherwise neither starts nor ends with white space |
| `Text.TrimIdempotent` | itas-backend/src/db.dev.js:90 | trimming twice equals trimming once, so `addDaily` re-trimming the route's already trimmed text changes nothing |
| `Common.FirstIndex` | itas-backend/src/db.js:93 | the position of the first element the predicate accepts: every earlier element fails it; none exactly when every element fails it |
| `Db.EmailIndex` | itas-backend/src/db.js:106 | the first position whose e-mail equals the given one ignoring case; none exactly when no e-mail matches |
| `Db.IdIndex` | itas-backend/src/db.js:93 | the first position holding the id; none exactly when no record has it |
| `Db.FindUserByEmail` | itas-backend/src/db.js:29-32 | the first stored user whose e-mail equals the given one ignoring case (the record at `EmailIndex`); null exactly when no stored e-mail matches |
| `Db.FindUserById` | itas-backend/src/db.js:34-37 | the first stored user with exactly this id (the record at `IdIndex`); null exactly when no id matches |
| `Db.FindUserByResetToken` | itas-backend/src/db.js:39-42 | the first stored user holding this reset token, never one with a null token; null exactly when nobody holds it |
| `Db.CreateUser` | itas-backend/src/db.js:45-89 | fails with `exists` exactly when some stored e-mail matches ignoring case. Otherwise it appends one record and keeps every earlier record. The new record has the given fields, `approved=false`, 2FA off, and null secrets and reset fields |
| `Db.ApplyPatch` | itas-backend/src/db.js:95-99 | each patched field takes the patch value; each unpatched field keeps its value; `updatedAt` is now; id, name, e-mail and `createdAt` never change |
| `Db.PatchIsIdempotent` | itas-backend/src/db.js:95-99 | merging the same patch twice gives the record of one merge, apart from `updatedAt` |
| `Db.UpdateUserById` | itas-backend/src/db.js:91-102 | null and an unchanged store exactly when the id is absent; otherwise the first user with the id is patched and every other user is untouched |
| `Db.SetResetToken` | itas-backend/src/db.js:104-113 | on the first user matching the e-mail ignoring case, only `resetToken`, `resetTokenExp` and `updatedAt` change; null and no change when nobody matches |
| `Db.NewResetTokenSupersedesOld` | itas-backend/src/db.js:104-113 | after a new token is stored, the previous token no longer finds that user, and finds nobody when that user was its only holder |
| `Db.ListPendingRoleRequests` | itas-backend/src/db.js:116-119 | lists exactly the users with a truthy `requestedRole` and `approved === false`; a one-record store lists that record once when it is pending and nothing otherwise |
| `Db.ListPendingAppend` | itas-backend/src/db.js:118 | the listing distributes over concatenation, so with the one-record case it keeps store order and lists each pending record exactly as often as it is stored |
| `Tokens.SignThenVerify` | itas-backend/src/utils.js:8-20 | a freshly signed token verifies with its own secret until its lifetime ends, and never with another secret |
| `Tokens.SignTokens` | itas-backend/src/utils.js:8-12 | the access token verifies only with the access secret for 15 minutes; the refresh token verifies only with the refresh secret for 30 days; both carry the same payload |
| `Tokens.SignRoleActionToken` | itas-backend/src/utils.action.js:7-12 | the link token carries subject, action and requested role, verifies only with the action-link secret, and lives 48 hours |
| `Tokens.BearerToken` | itas-backend/src/utils.role.js:6-8 | a token is extracted exactly when the header starts with `Bearer ` and something follows it; that something is the token |
| `Tokens.BearerRoundTrip` | itas-backend/src/utils.role.js:6-8 | prefixing a non-empty token with `Bearer ` and parsing the header gives the token back |
| `Tokens.AccessClaims` | itas-backend/src/routes.auth.js:110-114 | the access payload is present exactly when a bearer token is present and the access secret accepts it, and it is then the payload that token carries |
| `Tokens.AccessCheckAcceptsStageToken` | itas-backend/src/routes.auth.js:53 | a live 2FA stage token passes the access check, with the stage payload and no role |
| `Auth.Register` | itas-backend/src/routes.auth.js:16-41 | 400 exactly when name, e-mail or password is missing; 409 exactly when the e-mail is taken ignoring case; no other failure. Neither writes. Otherwise one client account is appended with `requestedRole=client`, not approved, 2FA off, and an access and a refresh token for it are returned |
| `Auth.Login` | itas-backend/src/routes.auth.js:44-77 | never writes. 401 exactly for a missing or unknown e-mail or a rejected password. A stage token and no session exactly when 2FA is enabled with a secret; otherwise session tokens whose `requires2FASetup` is the stored flag |
| `Auth.LoginFailuresAreIndistinguishable` | itas-backend/src/routes.auth.js:46-49 | an unknown e-mail and a wrong password give the identical reply and store |
| `Auth.TwoFactorLogin` | itas-backend/src/routes.auth.js:80-106 | never writes; answers only 400, 401 or a session. 400 without a code or token. Otherwise 401 exactly when the access secret rejects the token, it is no stage token, or it names no user holding a secret; 400 exactly when such a user exists and the TOTP check rejects the code; a session for that user's stored record exactly when it accepts it |
| `Auth.PasswordThenCodeGivesSession` | itas-backend/src/routes.auth.js:52-98 | the stage token that login returns, used within three minutes with an accepted code, gives a session for the same account |
| `Auth.TwoFactorSetup` | itas-backend/src/routes.auth.js:109-125 | 401 with no change unless the access token names a stored user; otherwise only `twoFASetupTemp` (and `updatedAt`) changes, to the fresh secret that is returned |
| `Auth.TwoFactorVerify` | itas-backend/src/routes.auth.js:128-154 | answers only 401, 400 or ok. 401 exactly without a valid access token. 400 with no change exactly when the user is unknown, nothing is staged, the code is missing or the code is wrong. Ok exactly when the user, the staged secret and the code are all good: 2FA is enabled, the staged secret becomes `twoFASecret`, and the stage and setup flag are cleared |
| `Auth.SetupThenVerifyPromotesSecret` | itas-backend/src/routes.auth.js:119-153 | setup then verify with a valid code leaves exactly the staged secret as the login secret; a second verify answers 400 and changes nothing |
| `Auth.Forgot` | itas-backend/src/routes.auth.js:161-175 | always `{ok:true}`. An existing account gets the token with expiry now + 15 minutes and nothing else changes; an unknown e-mail leaves the store unchanged |
| `Auth.Reset` | itas-backend/src/routes.auth.js:210-221 | 400 with no change for a missing field, an unknown token or an expiry before now. Otherwise it stores the new hash and clears the token and its expiry on that account |
| `Auth.ResetTokenIsSingleUse` | itas-backend/src/routes.auth.js:213-219 | once a reset succeeded, replaying its token answers 400 and changes nothing |
| `Auth.ForgotThenReset` | itas-backend/src/routes.auth.js:161-221 | a token from `/forgot` resets that account's password up to 15 minutes later and is refused after that |
| `Auth.MeRoute` | itas-backend/src/routes.auth.js:224-237 | never writes; answers the stored profile of the token's subject exactly when the access token is valid and names a stored user, else 401 |
| `Auth.Refresh` | itas-backend/src/routes.auth.js:239-249 | never writes; answers only 400, 401 or new tokens. 400 exactly without a token. New tokens exactly when the refresh secret accepts it and its subject is stored, else 401. The new tokens carry the payload read from the store, not from the old token |
| `Auth.SessionTokenReadsCurrentProfile` | itas-backend/src/routes.auth.js:224-237 | the access token of a login session, within its 15 minutes, makes `/me` answer the profile of that account's record in whatever store holds by then, and 401 once no record has its id |
| `Auth.RefreshReadsCurrentRecord` | itas-backend/src/routes.auth.js:239-249 | the refresh token of a login session, within its 30 days, yields tokens for that account's current record (a role changed since login, say) in whatever store holds by then, and 401 once no record has its id |
| `Auth.StageTokenOpensSetup` | itas-backend/src/routes.auth.js:53-124 | after the password step alone, the stage token opens `/2fa/setup` and stages a new secret |
| `RoleGuard.RequireRole` | itas-backend/src/utils.role.js:3-19 | 401 exactly when the bearer token is missing or rejected. 403 exactly when a non-empty allow-list lacks the payload's role. Otherwise it passes, with the request user equal to the payload |
| `RoleGuard.StageTokenPassesOnlyOpenGuards` | itas-backend/src/utils.role.js:9-13 | a live stage token passes a guard with an empty allow-list and gets 403 from any other guard |
| `Html.ReplaceAll` | itas-backend/src/server.js:63-66 | a global replacement removes every occurrence of the character when the replacement does not contain it, and adds no character that was in neither input; a one-character string becomes the replacement when it is that character and stays as it is otherwise |
| `Html.EscapeHtml` | itas-backend/src/server.js:61-67 | the output holds no raw `<`, `>` or `"`; a string without `&`, `<`, `>`, `"` comes back unchanged |
| `Html.EscapeHtmlIsCharwise` | itas-backend/src/server.js:61-67 | the four passes in a row equal escaping each character on its own, so no entity is escaped twice |
| `Html.ReplaceAllAppend` | itas-backend/src/server.js:63-66 | a global replacement distributes over concatenation, so every character is replaced or kept on its own, in order |
| `Html.UnescapeAt` | itas-backend/src/server.js:61-67 | each character's entity, followed by any text, reads back as that character followed by the reading of the text |
| `Html.EscapeHtmlRoundTrip` | itas-backend/src/server.js:61-67 | decoding the four entities recovers the input, so distinct values never render alike |
| `Admin.GrantedRole` | itas-backend/src/server.js:157 | the role an approve link grants is the token's `req`, and the empty role when the token has none |
| `Admin.RoleAction` | itas-backend/src/server.js:130-215 | 400 for a missing token, a token the action secret rejects or an unknown action; 404 exactly for an unknown subject; none writes. Approve sets the token's role, clears the request and approves. Deny clears the request and un-approves, keeping the role. The page embeds the escaped values |
| `Admin.ApproveLinkIsIdempotent` | itas-backend/src/server.js:156-158 | following the same approve link twice gives every record as after the first click, apart from `updatedAt` |
| `Admin.ApproveLinkGrantsRequestedRole` | itas-backend/src/server.js:145-158 | an approve link for role R, followed within 48 hours, leaves the account with role R, no request, approved |
| `Admin.SessionTokenIsNoActionLink` | itas-backend/src/server.js:55-59 | an access token presented as a link is rejected by the action secret: page 400, no change |
| `Admin.SetRole` | itas-backend/src/server.js:304-326 | the guard's 401/403 come first. A role outside client/developer/employer gets 400, so admin is never granted. Granting employer needs the actor's role to be exactly admin, else 403. An unknown id gets 404. Past those checks the answer is ok exactly when the id is stored: the role is set, the request cleared and the account approved; rejections write nothing |
| `Admin.DenyRole` | itas-backend/src/server.js:329-341 | the guard's 401/403 come first. 404 exactly for an unknown id; 400 exactly when no request is pending; ok exactly when the id is stored with a pending request: the request is cleared and the account un-approved with its role kept; rejections write nothing |
| `DevStore.LastSix` | itas-backend/src/db.dev.js:31 | `slice(-6)`: the last six characters, or the whole id when it is shorter |
| `DevStore.SeedTask` | itas-backend/src/db.dev.js:30-40 | the demo task numbered `idx`: id `t<idx>-` plus the last six characters of the user id, the given title and status, due `idx` days after now, assigned to the user, one log `l<idx>a` by `system` |
| `DevStore.SeedIdsAreDistinct` | itas-backend/src/db.dev.js:31 | the three demo tasks of one user have three different ids |
| `DevStore.SeedTasks` | itas-backend/src/db.dev.js:30-45 | three demo tasks, each assigned to the user, with a known status and exactly one log entry |
| `DevStore.EnsureDevSeed` | itas-backend/src/db.dev.js:25-52 | a user without tasks gets exactly three tasks appended after the old ones; a user with tasks changes nothing; daily logs are untouched; afterwards the user has tasks |
| `DevStore.SeedIsIdempotent` | itas-backend/src/db.dev.js:25-47 | seeding twice, at any times, equals seeding once |
| `DevStore.SeedKeepsOthersTasks` | itas-backend/src/db.dev.js:41-45 | seeding one user leaves every other user's task list, in order, as it was |
| `DevStore.OwnedTasks` | itas-backend/src/db.dev.js:58 | exactly the tasks assigned to the user |
| `DevStore.OwnedTasksAppend` | itas-backend/src/db.dev.js:58 | the ownership filter keeps store order: it distributes over concatenation |
| `DevStore.OwnedTasksIgnoresOthers` | itas-backend/src/db.dev.js:58 | changing only one user's tasks leaves every other user's filtered list unchanged |
| `DevStore.GetTasks` | itas-backend/src/db.dev.js:55-59 | after seeding, the ownership filter of the seeded store, so exactly the caller's tasks in store order; never an empty list |
| `DevStore.TaskIndex` | itas-backend/src/db.dev.js:64 | the first task with this id assigned to this user; none exactly when no task has both |
| `DevStore.GetTask` | itas-backend/src/db.dev.js:61-66 | the first of the caller's tasks with this id, in store order; null exactly when every task with that id belongs to someone else |
| `DevStore.SaveTask` | itas-backend/src/db.dev.js:68-75 | replaces the first task matching (id, caller) in place, or appends when none matches; all other tasks and the daily log are unchanged |
| `DevStore.SaveThenGet` | itas-backend/src/db.dev.js:61-75 | a saved task of the caller is what a later read with its id returns |
| `DevStore.DailyOf` | itas-backend/src/db.dev.js:81 | exactly the daily entries of the user; a one-entry log gives that entry when it is the user's and nothing otherwise |
| `DevStore.DailyOfAppend` | itas-backend/src/db.dev.js:81 | the filter distributes over concatenation, so it keeps store order and multiplicity |
| `DevStore.GetDaily` | itas-backend/src/db.dev.js:78-82 | the caller's filter of the daily log, so exactly the caller's entries in stored order; seeding does not touch the daily log |
| `DevStore.AddThenGetDaily` | itas-backend/src/db.dev.js:78-97 | after an entry is added, the caller's list is that entry followed by the earlier list, so the list is newest first |
| `DevStore.AddDaily` | itas-backend/src/db.dev.js:84-97 | prepends one entry with the trimmed text, the caller's id, the fresh id and the time, and returns it |
| `DevStore.RemoveEntry` | itas-backend/src/db.dev.js:102 | keeps exactly the entries that do not match both the user and the id; a one-entry log loses that entry exactly when it matches |
| `DevStore.RemoveEntryAppend` | itas-backend/src/db.dev.js:102 | removal distributes over concatenation, so the entries that stay keep their order |
| `DevStore.RemoveEntryOwnDaily` | itas-backend/src/db.dev.js:81-102 | removing and then taking a user's entries equals taking them and then removing |
| `DevStore.RemoveDaily` | itas-backend/src/db.dev.js:99-105 | the daily log becomes the removal filter of the old one, so only the caller's entries with that id go and the rest keep their order; tasks are only seeded |
| `DevStore.RemoveThenGetDaily` | itas-backend/src/db.dev.js:78-105 | after a removal the caller's list is the earlier list without the entries with that id, the rest in their order |
| `DevStore.RemoveDailyKeepsOthers` | itas-backend/src/db.dev.js:99-105 | every other user's entries stay, in their order; a removal that matches nothing changes nothing |
| `DevRoutes.CountStatus` | itas-backend/src/routes.dev.js:30-31 | the count is at most the number of tasks; zero exactly when no task has the status; all exactly when every task has it; one task counts 1 exactly when it has the status |
| `DevRoutes.CountStatusAppend` | itas-backend/src/routes.dev.js:30-31 | counting distributes over concatenation, so with the one-task case the count is the number of tasks with that status |
| `DevRoutes.CountsAreDisjoint` | itas-backend/src/routes.dev.js:29-31 | completed and in-review counts together never exceed the tasks |
| `DevRoutes.SummaryOf` | itas-backend/src/routes.dev.js:26-34 | `assigned` is the task count, `completed` counts `tamamlandi`, `review` counts `incelemede`, and `score = 10*completed + 5*review`. So `completed + review <= assigned` and `score <= 10*assigned`, with equality exactly when every task is completed |
| `DevRoutes.SummaryOfAppend` | itas-backend/src/routes.dev.js:26-34 | one more task adds one to `assigned` and 10 points when completed, 5 when in review, none when waiting |
| `DevRoutes.UpdateStatus` | itas-backend/src/routes.dev.js:49-60 | 404 exactly when the caller owns no such task; 400 exactly for a status outside the three; neither changes a task. Ok exactly for a known task and status: that task alone gets the status and a new `updatedAt` |
| `DevRoutes.AddTaskLog` | itas-backend/src/routes.dev.js:63-81 | 404 without the task; 400 exactly when the trimmed text is empty. The entry is answered exactly for a known task and non-blank text: the task's logs grow by one item at the end, carrying the trimmed text and the e-mail or "you", and only that task changes |
| `DevRoutes.LogAuthor` | itas-backend/src/routes.dev.js:75 | a new log's author is the caller's e-mail when it is truthy and `you` otherwise, never empty |
| `DevRoutes.DropLog` | itas-backend/src/routes.dev.js:88 | removes every log with the id and keeps the others; a missing id changes nothing |
| `DevRoutes.DropLogAppend` | itas-backend/src/routes.dev.js:88 | the logs that stay keep their order |
| `DevRoutes.DeleteTaskLog` | itas-backend/src/routes.dev.js:84-92 | 404 exactly without the task, ok otherwise: only that task changes, its logs become their `DropLog` by the id (the others in order), and `updatedAt` moves |
| `DevRoutes.PostDaily` | itas-backend/src/routes.dev.js:99-104 | 400 and nothing stored exactly when the trimmed text is empty; the entry is answered exactly otherwise, the trimmed entry prepended |
| `DevRoutes.RequireAuth` | itas-backend/src/routes.dev.js:11-23 | 401 exactly when the access check fails; otherwise the caller is seeded and the request user is the payload |
| `DevRoutes.Handle` | itas-backend/src/routes.dev.js:11-109 | 401 with no change exactly without a valid access token; every other request leaves the caller with tasks, and the task list and summary are never empty. Past the token, on the seeded store: the summary counts exactly the caller's tasks; the task list is exactly the caller's tasks in store order; a single task is 404 exactly when the caller owns none with that id and is otherwise the first one; the daily list is exactly the caller's entries; each write route's whole step, reply and store, is its store operation's step on the seeded store, so a posted daily entry is stored |
| `DevRoutes.WriteRoutesSeedOnce` | itas-backend/src/routes.dev.js:11-109 | the router's own seeding before a write changes nothing the operation would not do itself: each write route equals its operation on the unseeded store, and the daily list reads the unseeded store's entries |
| `DevRoutes.RequestsAreIsolated` | itas-backend/src/routes.dev.js:26-109 | a request never changes, or reorders, the tasks or daily entries of any user but the token's subject |
| `RouterGuard.Guard` | itas-frontend/src/router/index.js:29-67 | the four rules, each where it applies. A protected route while signed out goes to `login` with the target path. Setup done and enabled on the setup page goes to `dashboard`. Setup required goes to `twofa-setup`. Unapproved outside the bypass list goes to `pending-approval`. The guard allows exactly when no rule applies, and a signed-out user is sent nowhere but `login` |
| `RouterGuard.RedirectLeavesTarget` | itas-frontend/src/router/index.js:29-67 | for any route in the table, a redirect never names the route asked for |
| `RouterGuard.RedirectsSettle` | itas-frontend/src/router/index.js:29-67 | at most two redirects in a row, after which the route is allowed |
| `RouterGuard.ClientUserOf` | itas-frontend/src/stores/auth.js:56 | the stored user carries the two 2FA flags as booleans and no `approved` field |
| `RouterGuard.ApprovalGateNeverFiresOnBackendProfile` | itas-frontend/src/router/index.js:58-66 | with the user object the backend sends, the approval rule never redirects to `pending-approval` |
| `Invariants.Apply` | itas-backend/src/routes.auth.js:44-249 | login, 2FA login, `/me` and `/refresh` never write; only registration grows the store, by one |
| `Invariants.RegisterKeepsValid` | itas-backend/src/db.js:55-58 | registration keeps accounts consistent and e-mails unique ignoring case |
| `Invariants.ApplyKeepsValid` | itas-backend/src/routes.auth.js:147-152 | every auth or admin request preserves the invariant. It has three parts: 2FA is on exactly when a secret is stored; approved implies no open request; `twoFASetupRequired` is never set. E-mails also stay unique |
| `Invariants.RunKeepsValid` | itas-backend/src/db.js:45-113 | every store reachable by any request sequence satisfies the invariant |
| `Invariants.LoginOnValidStore` | itas-backend/src/routes.auth.js:52-68 | on a reachable store login asks for a code exactly when 2FA is enabled, and never answers `requires2FASetup: true` |
| `Invariants.EmailNamesOneAccount` | itas-backend/src/db.js:29-32 | on a valid store the e-mail lookup finds the only account the e-mail can mean |

## Left out

- File persistence of both JSON stores. This covers the missing-file and
  parse-failure fallbacks and the `Array.isArray` repairs. The stores are
  in-memory sequences, and a list field is always a list.
- Cryptography and foreign libraries are parameters or abstract values:
  bcrypt hashing and comparison, speakeasy TOTP, `crypto.randomBytes`,
  `Math.random` ids, JWT encoding and signatures.
- QR-code rendering, including its 500 answer on `/2fa/setup`, is not
  modelled. The other 500s are left out too (a failing hash on
  `/register`).
- Mail is not modelled: SMTP, the `setImmediate` mail after `/forgot`, the
  approval and denial mails, and the support-contact endpoint. It is I/O
  with no effect on the stores.
- Express wiring is not modelled: helmet, CORS, morgan, cache headers, the
  `renderHtml` page text, `/api/health`, `/api/dev/port`, `/logout` and the
  port-retry boot. `/logout` only answers `{ok:true}`.
- The second `GET /api/admin/role-action` handler (server.js:224-301) is
  not modelled. Express always dispatches to the first one, so the second
  is unreachable.
- The frontend stores and services are only axios and localStorage glue.
  Only the user object that `RouterGuard.ClientUserOf` reads from them is
  modelled.
- Token lifetimes are modelled at their defaults; the environment can
  change them. Lifetimes are whole seconds: 900 for access, 2592000 for
  refresh, 180 for stage and 172800 for action links.
- JSON values of the wrong type (a non-string e-mail, a numeric status) and
  `req.query.token` given as an array are not modelled. Fields are strings.
- `Text.ToLower`: lower-cases only ASCII letters. JavaScript's
  `toLowerCase` folds all of Unicode, so two e-mails differing only in
  non-ASCII case count as different here.
- The three signing secrets are distinct keys by construction, as their
  defaults are. The source reads each from the environment, and an
  operator who sets two of them equal makes tokens of one kind pass the
  other's check; the cross-rejections in `Tokens.SignTokens`,
  `Tokens.SignRoleActionToken` and `Admin.SessionTokenIsNoActionLink` hold
  only for distinct secrets.
- `Admin.GrantedRole`: an approve token without `req` grants the empty
  role. The source stores `undefined`, which drops the `role` field when
  the store is written.
- `RouterGuard.Guard`: a target is a named route. The table's `/` and
  catch-all entries redirect before the guard runs, so the unnamed case
  does not arise.
- `Auth.ResetTokenIsSingleUse` and `Auth.ForgotThenReset`: these assume
  that ids and reset tokens are unique across accounts. The source draws
  both at random and does not check them.
- `Invariants.ApplyKeepsValid`: covers the auth and admin handlers. The
  dashboard routes never touch the user store.
- `Auth.TwoFactorVerify`: a request without a code answers 400 with no
  change. In the source `speakeasy.totp.verify` throws on the missing
  token, and with no `try` around it the request ends in a 500, also with
  no change. The 500 is left out with the other 500s.
- `Auth.ResetTokenIsSingleUse`: every handler is one atomic step, so the
  lemma holds only for requests that run one after another. `/reset` looks
  up the token (routes.auth.js:213), awaits `bcrypt.hash`
  (routes.auth.js:218) and only then writes (routes.auth.js:219). Two
  `/reset` requests with the same token can both pass the lookup before
  either writes, and both answer `{ok:true}`. A `/forgot` for the same
  account that lands during the await has its new token erased by the
  write. This interleaving is not modelled. Registration is not affected:
  `createUser` checks for a duplicate and appends without awaiting.

=== FILE: admin.dfy ===
/**
  The role-approval gate of `server.js`: the one-click approve/deny link,
  which needs no session, and the two admin endpoints behind
  `requireRole("admin", "employer")`.
 */
module Admin {
  import opened Common
  import opened Db
  import opened Tokens
  import opened Html
  import opened RoleGuard

  const AdminRole: string := "admin"
  const DeveloperRole: string := "developer"
  const EmployerRole: string := "employer"

  /** The roles the set-role endpoint may grant. */
  const GrantableRoles: seq<string> := [ClientRole, DeveloperRole, EmployerRole]

  /** The roles `requireRole` admits to the admin endpoints. */
  const ReviewerRoles: seq<string> := [AdminRole, EmployerRole]

  function ApprovePatch(role: string): Patch {
    NoChange.(role := Some(role), requestedRole := Some(None), approved := Some(true))
  }

  const DenyPatch: Patch := NoChange.(requestedRole := Some(None), approved := Some(false))

  /* ---------------- GET /api/admin/role-action ---------------- */

  /** The HTML page answered; the two success pages embed the escaped
      e-mail (and the escaped granted role). */
  datatype Page =
    | ErrorPage(status: nat)
    | ApprovedPage(emailHtml: string, roleHtml: string)
    | DeniedPage(emailHtml: string)

  datatype ActionStep = ActionStep(page: Page, users: seq<User>)

  /** The role an approve link grants: the token's `req`. A token without
      `req` stands for an absent value, modelled as the empty role. */
  function GrantedRole(c: Claims): (r: string)
    ensures c.req.Some? ==> r == c.req.value
    ensures c.req.None? ==> r == ""
  {
    Pick(c.req, "")
  }

  /** GET /api/admin/role-action?token=...: 400 without a token or when the
      action-link secret rejects it, 404 for an unknown subject, 400 for an
      action other than approve or deny; none of these writes. Approve grants
      the token's role, clears the request and marks the user approved; deny
      clears the request, marks the user not approved and keeps the role. */
  function RoleAction(users: seq<User>, token: string, decode: Decoder, now: Time): (r: ActionStep)
    ensures r.page.ErrorPage? ==> r.users == users
    ensures r.page.ErrorPage? ==> r.page.status == BadRequest || r.page.status == NotFound
    ensures token == "" ==> r.page == ErrorPage(BadRequest)
    ensures token != "" && Verify(ActionKey, decode(token), now).None? ==> r.page == ErrorPage(BadRequest)
    ensures r.page == ErrorPage(NotFound) <==>
              && token != ""
              && Verify(ActionKey, decode(token), now).Some?
              && forall j :: 0 <= j < |users| ==> users[j].id != Verify(ActionKey, decode(token), now).value.sub
    ensures token != "" && Verify(ActionKey, decode(token), now).Some? &&
            IdIndex(users, Verify(ActionKey, decode(token), now).value.sub).Some? ==>
              var act := Verify(ActionKey, decode(token), now).value.act;
              (r.page.ErrorPage? <==> act != Some("approve") && act != Some("deny"))
    ensures !r.page.ErrorPage? ==>
              && token != ""
              && var c := Verify(ActionKey, decode(token), now).value;
              && var i := IdIndex(users, c.sub).value;
              && |r.users| == |users|
              && (forall j :: 0 <= j < |users| && j != i ==> r.users[j] == users[j])
              && (r.page.ApprovedPage? <==> c.act == Some("approve"))
              && (r.page.DeniedPage? <==> c.act == Some("deny"))
              && (r.page.ApprovedPage? ==>
                    && r.users[i] == users[i].(role := GrantedRole(c), requestedRole := None, approved := true, updatedAt := now)
                    && r.page == ApprovedPage(EscapeHtml(users[i].email), EscapeHtml(GrantedRole(c))))
              && (r.page.DeniedPage? ==>
                    && r.users[i] == users[i].(requestedRole := None, approved := false, updatedAt := now)
                    && r.page == DeniedPage(EscapeHtml(users[i].email)))
  {
    if token == "" then ActionStep(ErrorPage(BadRequest), users)
    else
      match Verify(ActionKey, decode(token), now)
      case None => ActionStep(ErrorPage(BadRequest), users)
      case Some(c) =>
        match FindUserById(users, c.sub)
        case None => ActionStep(ErrorPage(NotFound), users)
        case Some(u) =>
          if c.act == Some("approve") then
            var w := UpdateUserById(users, u.id, ApprovePatch(GrantedRole(c)), now);
            ActionStep(ApprovedPage(EscapeHtml(u.email), EscapeHtml(GrantedRole(c))), w.users)
          else if c.act == Some("deny") then
            var w := UpdateUserById(users, u.id, DenyPatch, now);
            ActionStep(DeniedPage(EscapeHtml(u.email)), w.users)
          else ActionStep(ErrorPage(BadRequest), users)
  }

  /** Following an approve link twice leaves the account as after the first
      click, apart from `updatedAt`; nothing guards against the replay, the
      transition is idempotent by itself. */
  lemma {:induction false} ApproveLinkIsIdempotent(users: seq<User>, token: string, decode: Decoder, t1: Time, t2: Time)
    requires token != "" && Verify(ActionKey, decode(token), t1).Some?
    requires Verify(ActionKey, decode(token), t1).value.act == Some("approve")
    requires IdIndex(users, Verify(ActionKey, decode(token), t1).value.sub).Some?
    requires Verify(ActionKey, decode(token), t2) == Verify(ActionKey, decode(token), t1)
    ensures var s1 := RoleAction(users, token, decode, t1).users;
            var s2 := RoleAction(s1, token, decode, t2);
            && RoleAction(users, token, decode, t1).page.ApprovedPage?
            && s2.page.ApprovedPage?
            && |s2.users| == |s1|
            && forall j :: 0 <= j < |s1| ==> s2.users[j] == s1[j].(updatedAt := s2.users[j].updatedAt)
  {
    var c := Verify(ActionKey, decode(token), t1).value;
    var i := IdIndex(users, c.sub).value;
    var r1 := RoleAction(users, token, decode, t1);
    var s1 := r1.users;
    assert s1[i].id == c.sub;
    assert forall j :: 0 <= j < i ==> s1[j].id != c.sub;
    assert IdIndex(s1, c.sub) == Some(i);
    var r2 := RoleAction(s1, token, decode, t2);
    assert r2.page.ApprovedPage?;
    forall j | 0 <= j < |s1|
      ensures r2.users[j] == s1[j].(updatedAt := r2.users[j].updatedAt)
    {
      if j == i {
        assert r2.users[i] == s1[i].(role := GrantedRole(c), requestedRole := None, approved := true, updatedAt := t2);
      } else {
        assert r2.users[j] == s1[j];
      }
    }
  }

  /** The link the registration mail carries, for an approve of
      `requestedRole`: followed within 48 hours, the account holds that
      role, has no pending request and is approved. */
  lemma ApproveLinkGrantsRequestedRole(users: seq<User>, id: string, requestedRole: string, s: string,
                                       decode: Decoder, issued: Time, now: Time)
    requires s != "" && decode(s) == SignRoleActionToken(id, requestedRole, "approve", issued)
    requires Seconds(now) < Seconds(issued) + ActionTtl
    requires IdIndex(users, id).Some?
    ensures var r := RoleAction(users, s, decode, now);
            var i := IdIndex(users, id).value;
            && r.page.ApprovedPage?
            && r.users[i].role == requestedRole && r.users[i].requestedRole.None? && r.users[i].approved
  {
  }

  /** A session token is not a role-action link: the action secret rejects
      it, so the page is a 400 and nothing changes. */
  lemma SessionTokenIsNoActionLink(users: seq<User>, c: Claims, s: string, decode: Decoder, now: Time)
    requires s != "" && decode(s) == SignTokens(c, now).access
    ensures RoleAction(users, s, decode, now) == ActionStep(ErrorPage(BadRequest), users)
  {
  }

  /* ---------------- PUT /api/admin/users/:id/role ---------------- */

  datatype AdminReply = Rejected(status: nat) | Ok

  datatype AdminStep = AdminStep(reply: AdminReply, users: seq<User>)

  /** PUT /api/admin/users/:id/role: the guard's 401/403 first; then 400 for
      a role outside client, developer and employer, so `admin` is never
      granted; 403 when `employer` is granted by anyone whose token role is
      not exactly `admin`; 404 for an unknown id; otherwise the role is set,
      the request cleared and the account approved. Rejections write nothing. */
  function SetRole(users: seq<User>, header: string, decode: Decoder, id: string, role: string, now: Time): (r: AdminStep)
    ensures r.reply.Rejected? ==> r.users == users
    ensures RequireRole(header, ReviewerRoles, decode, now).Reject? ==>
              r.reply == Rejected(RequireRole(header, ReviewerRoles, decode, now).status)
    ensures RequireRole(header, ReviewerRoles, decode, now).Pass? && role !in GrantableRoles ==>
              r.reply == Rejected(BadRequest)
    ensures RequireRole(header, ReviewerRoles, decode, now).Pass? && role == EmployerRole
              && RequireRole(header, ReviewerRoles, decode, now).user.role != Some(AdminRole) ==>
              r.reply == Rejected(Forbidden)
    ensures r.reply.Ok? ==>
              && role in GrantableRoles && role != AdminRole
              && var actor := RequireRole(header, ReviewerRoles, decode, now);
              && actor.Pass? && actor.user.role.Some? && actor.user.role.value in ReviewerRoles
              && (role == EmployerRole ==> actor.user.role == Some(AdminRole))
              && IdIndex(users, id).Some?
              && var i := IdIndex(users, id).value;
              && |r.users| == |users|
              && r.users[i] == users[i].(role := role, requestedRole := None, approved := true, updatedAt := now)
              && forall j :: 0 <= j < |users| && j != i ==> r.users[j] == users[j]
    ensures RequireRole(header, ReviewerRoles, decode, now).Pass? && role in GrantableRoles
              && (role == EmployerRole ==> RequireRole(header, ReviewerRoles, decode, now).user.role == Some(AdminRole)) ==>
              && (r.reply == Rejected(NotFound) <==> forall j :: 0 <= j < |users| ==> users[j].id != id)
              && (r.reply == Ok <==> IdIndex(users, id).Some?)
  {
    match RequireRole(header, ReviewerRoles, decode, now)
    case Reject(status) => AdminStep(Rejected(status), users)
    case Pass(actor) =>
      if role !in GrantableRoles then AdminStep(Rejected(BadRequest), users)
      else if role == EmployerRole && actor.role != Some(AdminRole) then AdminStep(Rejected(Forbidden), users)
      else
        match FindUserById(users, id)
        case None => AdminStep(Rejected(NotFound), users)
        case Some(_) => AdminStep(Ok, UpdateUserById(users, id, ApprovePatch(role), now).users)
  }

  /* ---------------- POST /api/admin/users/:id/role/deny ---------------- */

  /** POST /api/admin/users/:id/role/deny: the guard's 401/403 first; 404 for
      an unknown id; 400 when the account has no pending request; otherwise
      the request is cleared and the account marked not approved, its role
      kept. Rejections write nothing. */
  function DenyRole(users: seq<User>, header: string, decode: Decoder, id: string, now: Time): (r: AdminStep)
    ensures r.reply.Rejected? ==> r.users == users
    ensures RequireRole(header, ReviewerRoles, decode, now).Reject? ==>
              r.reply == Rejected(RequireRole(header, ReviewerRoles, decode, now).status)
    ensures RequireRole(header, ReviewerRoles, decode, now).Pass? ==>
              && (r.reply == Rejected(NotFound) <==> forall j :: 0 <= j < |users| ==> users[j].id != id)
              && (r.reply == Rejected(BadRequest) <==>
                    IdIndex(users, id).Some? && !Truthy(users[IdIndex(users, id).value].requestedRole))
              && (r.reply == Ok <==>
                    IdIndex(users, id).Some? && Truthy(users[IdIndex(users, id).value].requestedRole))
    ensures r.reply.Ok? ==>
              && RequireRole(header, ReviewerRoles, decode, now).Pass?
              && IdIndex(users, id).Some?
              && var i := IdIndex(users, id).value;
              && Truthy(users[i].requestedRole)
              && |r.users| == |users|
              && r.users[i] == users[i].(requestedRole := None, approved := false, updatedAt := now)
              && forall j :: 0 <= j < |users| && j != i ==> r.users[j] == users[j]
  {
    match RequireRole(header, ReviewerRoles, decode, now)
    case Reject(status) => AdminStep(Rejected(status), users)
    case Pass(_) =>
      match FindUserById(users, id)
      case None => AdminStep(Rejected(NotFound), users)
      case Some(u) =>
        if !Truthy(u.requestedRole) then AdminStep(Rejected(BadRequest), users)
        else AdminStep(Ok, UpdateUserById(users, id, DenyPatch, now).users)
  }
}

=== FILE: auth.dfy ===
/**
  The `/api/auth` routes as transitions of the user store:
  `(store, request, now) -> (reply, store')`. Password hashing, TOTP
  checking and fresh random values are parameters: `compare` stands for
  `bcrypt.compare`, `totp` for `speakeasy.totp.verify` with window 1 at the
  given time, and hashes, ids, secrets and reset tokens arrive as values.
  A request field that is absent is the empty string; both are falsy.
 */
module Auth {
  import opened Common
  import opened Text
  import opened Db
  import opened Tokens

  /** Fifteen minutes in milliseconds: the lifetime of a password-reset token. */
  const ResetTtlMs: int := 15 * 60 * 1000

  type PasswordCheck = (string, string) -> bool
  type TotpCheck = (string, string, Time) -> bool

  /** The `user` object the routes send back: no secrets, only the flags. */
  datatype Profile = Profile(
    id: string, email: string, name: string, role: string,
    twoFAEnabled: bool, twoFASetupRequired: bool)

  function ProfileOf(u: User): Profile {
    Profile(u.id, u.email, u.name, u.role, u.twoFAEnabled, u.twoFASetupRequired)
  }

  function SessionOf(u: User): Claims {
    SessionClaims(u.id, u.email, u.role)
  }

  /** The JSON bodies the routes answer with. `Session` carries
      `requires2FASetup`, false where the body leaves it out. */
  datatype Reply =
    | Fail(status: nat)
    | Session(tokens: TokenPair, user: Profile, requires2FASetup: bool)
    | Challenge(tempToken: Jwt)
    | Enrollment(secret: string)
    | Me(profile: Profile)
    | Refreshed(tokens: TokenPair)
    | Done

  datatype Step = Step(reply: Reply, users: seq<User>)

  /* ---------------- /register ---------------- */

  /** POST /register: 400 on a missing name, e-mail or password; 409 when the
      e-mail is taken; otherwise a new client account and session tokens
      for it. The body's requested role is not read. */
  function Register(users: seq<User>, name: string, email: string, password: string,
                    hash: string, id: string, now: Time): (r: Step)
    ensures r.reply.Fail? || r.reply.Session?
    ensures r.reply.Fail? ==> r.users == users
    ensures r.reply.Fail? ==> r.reply == Fail(BadRequest) || r.reply == Fail(Conflict)
    ensures r.reply == Fail(BadRequest) <==> name == "" || email == "" || password == ""
    ensures r.reply == Fail(Conflict) <==>
              && name != "" && email != "" && password != ""
              && exists j :: 0 <= j < |users| && SameIgnoringCase(users[j].email, email)
    ensures r.reply.Session? ==>
              && |r.users| == |users| + 1 && r.users[..|users|] == users
              && var u := r.users[|users|];
              && u.id == id && u.name == name && u.email == email && u.passwordHash == hash
              && u.role == ClientRole && u.requestedRole == Some(ClientRole)
              && !u.approved && !u.twoFAEnabled && !u.twoFASetupRequired
              && Verify(AccessKey, r.reply.tokens.access, now) == Some(SessionOf(u))
              && Verify(RefreshKey, r.reply.tokens.refresh, now) == Some(SessionOf(u))
              && r.reply.user == ProfileOf(u) && r.reply.requires2FASetup
  {
    if name == "" || email == "" || password == "" then Step(Fail(BadRequest), users)
    else
      match CreateUser(users, RegistrationDraft(name, email, hash), id, now)
      case EmailTaken => Step(Fail(Conflict), users)
      case Created(u, users') =>
        assert users'[..|users|] == users;
        Step(Session(SignTokens(SessionOf(u), now), ProfileOf(u), true), users')
  }

  /* ---------------- /login ---------------- */

  /** The account a login request authenticates: the user found by e-mail
      whose stored hash accepts the password. */
  function Authenticate(users: seq<User>, email: string, password: string, compare: PasswordCheck): Option<User> {
    if email == "" then None
    else
      match FindUserByEmail(users, email)
      case None => None
      case Some(u) => if compare(password, u.passwordHash) then Some(u) else None
  }

  /** POST /login. An unknown e-mail and a wrong password give the very same
      401. A user with 2FA enabled and a secret gets only a stage token;
      everyone else gets session tokens. The store never changes. */
  function Login(users: seq<User>, email: string, password: string, compare: PasswordCheck, now: Time): (r: Step)
    ensures r.users == users
    ensures r.reply.Fail? ==> r.reply == Fail(Unauthorized)
    ensures r.reply.Fail? <==>
              || email == ""
              || (forall j :: 0 <= j < |users| ==> !SameIgnoringCase(users[j].email, email))
              || !compare(password, FindUserByEmail(users, email).value.passwordHash)
    ensures !r.reply.Fail? ==>
              var u := FindUserByEmail(users, email).value;
              && (r.reply.Challenge? <==> u.twoFAEnabled && Truthy(u.twoFASecret))
              && (r.reply.Challenge? ==> Verify(AccessKey, r.reply.tempToken, now) == Some(StageClaims(u.id)))
              && (r.reply.Session? ==> r.reply.user == ProfileOf(u))
              && (r.reply.Session? ==> r.reply.requires2FASetup == u.twoFASetupRequired)
              && (r.reply.Session? ==> Verify(AccessKey, r.reply.tokens.access, now) == Some(SessionOf(u)))
    ensures r.reply.Fail? || r.reply.Challenge? || r.reply.Session?
  {
    match Authenticate(users, email, password, compare)
    case None => Step(Fail(Unauthorized), users)
    case Some(u) =>
      if u.twoFAEnabled && Truthy(u.twoFASecret) then
        Step(Challenge(Sign(AccessKey, StageClaims(u.id), StageTtl, now)), users)
      else if u.twoFASetupRequired then
        Step(Session(SignTokens(SessionOf(u), now), ProfileOf(u), true), users)
      else
        Step(Session(SignTokens(SessionOf(u), now), ProfileOf(u), false), users)
  }

  /** Login does not let a caller tell an unknown e-mail from a wrong
      password: both answers are the same, and so is the store. */
  lemma LoginFailuresAreIndistinguishable(users: seq<User>, unknown: string, known: string, password: string,
                                          wrong: string, compare: PasswordCheck, now: Time)
    requires unknown != "" && forall j :: 0 <= j < |users| ==> !SameIgnoringCase(users[j].email, unknown)
    requires FindUserByEmail(users, known).Some?
    requires !compare(wrong, FindUserByEmail(users, known).value.passwordHash)
    ensures Login(users, unknown, password, compare, now) == Login(users, known, wrong, compare, now)
  {
  }

  /* ---------------- /2fa/login ---------------- */

  /** POST /2fa/login: 400 without a code or stage token; 401 unless the
      token verifies with the access secret, carries `twoFAStage`, and names
      a user with a TOTP secret; 400 on a wrong code; session tokens
      otherwise. The store never changes. */
  function TwoFactorLogin(users: seq<User>, code: string, tempToken: string, decode: Decoder,
                          totp: TotpCheck, now: Time): (r: Step)
    ensures r.users == users
    ensures r.reply.Fail? || r.reply.Session?
    ensures r.reply.Fail? ==> r.reply == Fail(BadRequest) || r.reply == Fail(Unauthorized)
    ensures (code == "" || tempToken == "") ==> r.reply == Fail(BadRequest)
    ensures code != "" && tempToken != "" ==>
              var c := Verify(AccessKey, decode(tempToken), now);
              var u := if c.Some? && c.value.twoFAStage then FindUserById(users, c.value.sub) else None;
              && (r.reply == Fail(Unauthorized) <==> u.None? || !Truthy(u.value.twoFASecret))
              && (r.reply == Fail(BadRequest) <==>
                    u.Some? && Truthy(u.value.twoFASecret) && !totp(u.value.twoFASecret.value, code, now))
              && (r.reply.Session? <==>
                    u.Some? && Truthy(u.value.twoFASecret) && totp(u.value.twoFASecret.value, code, now))
    ensures r.reply.Session? ==>
              && code != ""
              && var c := Verify(AccessKey, decode(tempToken), now);
              && c.Some? && c.value.twoFAStage
              && var u := FindUserById(users, c.value.sub);
              && u.Some? && Truthy(u.value.twoFASecret)
              && totp(u.value.twoFASecret.value, code, now)
              && Verify(AccessKey, r.reply.tokens.access, now) == Some(SessionOf(u.value))
              && Verify(RefreshKey, r.reply.tokens.refresh, now) == Some(SessionOf(u.value))
              && r.reply.user == ProfileOf(u.value)
              && !r.reply.requires2FASetup
  {
    if code == "" || tempToken == "" then Step(Fail(BadRequest), users)
    else
      match Verify(AccessKey, decode(tempToken), now)
      case None => Step(Fail(Unauthorized), users)
      case Some(c) =>
        if !c.twoFAStage then Step(Fail(Unauthorized), users)
        else
          match FindUserById(users, c.sub)
          case None => Step(Fail(Unauthorized), users)
          case Some(u) =>
            if !Truthy(u.twoFASecret) then Step(Fail(Unauthorized), users)
            else if !totp(u.twoFASecret.value, code, now) then Step(Fail(BadRequest), users)
            else Step(Session(SignTokens(SessionOf(u), now), ProfileOf(u), false), users)
  }

  /** A stage token from `Login`, used within its three minutes with a code
      the TOTP check accepts, yields a session for the same account. */
  lemma PasswordThenCodeGivesSession(users: seq<User>, email: string, password: string, compare: PasswordCheck,
                                     s: string, code: string, decode: Decoder, totp: TotpCheck,
                                     issued: Time, now: Time)
    requires Login(users, email, password, compare, issued).reply.Challenge?
    requires s != "" && decode(s) == Login(users, email, password, compare, issued).reply.tempToken
    requires Seconds(now) < Seconds(issued) + StageTtl
    requires FindUserById(users, FindUserByEmail(users, email).value.id) == FindUserByEmail(users, email)
    requires code != "" && totp(FindUserByEmail(users, email).value.twoFASecret.value, code, now)
    ensures TwoFactorLogin(users, code, s, decode, totp, now).reply.Session?
    ensures TwoFactorLogin(users, code, s, decode, totp, now).reply.user == ProfileOf(FindUserByEmail(users, email).value)
  {
  }

  /* ---------------- /2fa/setup and /2fa/verify ---------------- */

  /** POST /2fa/setup: 401 without a live access-secret token naming a
      stored user; otherwise stores a fresh secret as `twoFASetupTemp` and
      returns it. Nothing but `twoFASetupTemp` and `updatedAt` changes; the
      enabled flag and the confirmed secret stay as they were. */
  function TwoFactorSetup(users: seq<User>, header: string, decode: Decoder, secret: string, now: Time): (r: Step)
    ensures r.reply.Fail? || r.reply.Enrollment?
    ensures r.reply.Fail? ==> r.reply == Fail(Unauthorized) && r.users == users
    ensures r.reply.Fail? <==>
              || AccessClaims(header, decode, now).None?
              || forall j :: 0 <= j < |users| ==> users[j].id != AccessClaims(header, decode, now).value.sub
    ensures r.reply.Enrollment? ==>
              && r.reply.secret == secret
              && |r.users| == |users|
              && var i := IdIndex(users, AccessClaims(header, decode, now).value.sub).value;
              && r.users[i] == users[i].(twoFASetupTemp := Some(secret), updatedAt := now)
              && forall j :: 0 <= j < |users| && j != i ==> r.users[j] == users[j]
  {
    match AccessClaims(header, decode, now)
    case None => Step(Fail(Unauthorized), users)
    case Some(c) =>
      match FindUserById(users, c.sub)
      case None => Step(Fail(Unauthorized), users)
      case Some(u) =>
        var w := UpdateUserById(users, u.id, NoChange.(twoFASetupTemp := Some(Some(secret))), now);
        Step(Enrollment(secret), w.users)
  }

  /** The confirming patch: the staged secret becomes the login secret. */
  function PromotePatch(temp: string): Patch {
    NoChange.(twoFAEnabled := Some(true), twoFASecret := Some(Some(temp)),
              twoFASetupTemp := Some(None), twoFASetupRequired := Some(false))
  }

  /** POST /2fa/verify: 401 without a live access-secret token; 400 with no
      change when the user is unknown, nothing is staged, or the code is
      missing or wrong (the TOTP library rejects an empty code, and throws
      on an absent one, which the route answers with a 500 that writes
      nothing); otherwise promotes the staged secret to the login secret,
      clears the stage and the setup flag, and enables 2FA. */
  function TwoFactorVerify(users: seq<User>, header: string, code: string, decode: Decoder,
                           totp: TotpCheck, now: Time): (r: Step)
    ensures r.reply.Fail? || r.reply.Done?
    ensures r.reply.Fail? ==> r.users == users
    ensures r.reply.Fail? ==> r.reply == Fail(Unauthorized) || r.reply == Fail(BadRequest)
    ensures r.reply == Fail(Unauthorized) <==> AccessClaims(header, decode, now).None?
    ensures r.reply.Done? <==>
              && AccessClaims(header, decode, now).Some?
              && var u := FindUserById(users, AccessClaims(header, decode, now).value.sub);
              && u.Some? && Truthy(u.value.twoFASetupTemp)
              && code != "" && totp(u.value.twoFASetupTemp.value, code, now)
    ensures AccessClaims(header, decode, now).Some? ==>
              var u := FindUserById(users, AccessClaims(header, decode, now).value.sub);
              && (r.reply == Fail(BadRequest) <==>
                    u.None? || !Truthy(u.value.twoFASetupTemp) || code == ""
                    || !totp(u.value.twoFASetupTemp.value, code, now))
    ensures r.reply.Done? ==>
              && |r.users| == |users|
              && var i := IdIndex(users, AccessClaims(header, decode, now).value.sub).value;
              && var temp := users[i].twoFASetupTemp.value;
              && r.users[i] == users[i].(twoFAEnabled := true, twoFASecret := Some(temp),
                                         twoFASetupTemp := None, twoFASetupRequired := false,
                                         updatedAt := now)
              && temp != ""
              && forall j :: 0 <= j < |users| && j != i ==> r.users[j] == users[j]
  {
    match AccessClaims(header, decode, now)
    case None => Step(Fail(Unauthorized), users)
    case Some(c) =>
      match FindUserById(users, c.sub)
      case None => Step(Fail(BadRequest), users)
      case Some(u) =>
        if !Truthy(u.twoFASetupTemp) then Step(Fail(BadRequest), users)
        else if code == "" || !totp(u.twoFASetupTemp.value, code, now) then Step(Fail(BadRequest), users)
        else
          var w := UpdateUserById(users, u.id, PromotePatch(u.twoFASetupTemp.value), now);
          Step(Done, w.users)
  }

  /** Enrolment end to end: after a setup that staged `secret`, a verify with
      a code valid for `secret` enables 2FA with exactly that secret. A
      second verify then finds nothing staged and answers 400 without
      changing anything. */
  lemma {:induction false} SetupThenVerifyPromotesSecret(users: seq<User>, header: string, decode: Decoder, secret: string,
                                                         code: string, code2: string, totp: TotpCheck,
                                                         t1: Time, t2: Time, t3: Time)
    requires TwoFactorSetup(users, header, decode, secret, t1).reply.Enrollment?
    requires AccessClaims(header, decode, t2) == AccessClaims(header, decode, t1)
    requires AccessClaims(header, decode, t3) == AccessClaims(header, decode, t1)
    requires secret != "" && code != "" && totp(secret, code, t2)
    ensures var s1 := TwoFactorSetup(users, header, decode, secret, t1).users;
            var s2 := TwoFactorVerify(s1, header, code, decode, totp, t2);
            var i := IdIndex(users, AccessClaims(header, decode, t1).value.sub).value;
            && s2.reply.Done?
            && s2.users[i].twoFAEnabled && s2.users[i].twoFASecret == Some(secret)
            && s2.users[i].twoFASetupTemp.None? && !s2.users[i].twoFASetupRequired
            && TwoFactorVerify(s2.users, header, code2, decode, totp, t3) == Step(Fail(BadRequest), s2.users)
  {
    var sub := AccessClaims(header, decode, t1).value.sub;
    var i := IdIndex(users, sub).value;
    var s1 := TwoFactorSetup(users, header, decode, secret, t1).users;
    assert s1[i].id == sub;
    assert forall j :: 0 <= j < i ==> s1[j].id != sub;
    assert IdIndex(s1, sub) == Some(i);
    var s2 := TwoFactorVerify(s1, header, code, decode, totp, t2);
    assert s2.reply.Done?;
    assert s2.users[i].id == sub;
    assert forall j :: 0 <= j < i ==> s2.users[j].id != sub;
    assert IdIndex(s2.users, sub) == Some(i);
  }

  /* ---------------- /forgot and /reset ---------------- */

  /** POST /forgot: always `{ ok: true }`. When the e-mail belongs to an
      account, that account now holds `token`, valid for fifteen minutes;
      otherwise the store is unchanged. */
  function Forgot(users: seq<User>, email: string, token: string, now: Time): (r: Step)
    ensures r.reply == Done
    ensures |r.users| == |users|
    ensures (email == "" || forall j :: 0 <= j < |users| ==> !SameIgnoringCase(users[j].email, email)) ==>
              r.users == users
    ensures email != "" && EmailIndex(users, email).Some? ==>
              var i := EmailIndex(users, email).value;
              && r.users[i] == users[i].(resetToken := Some(token), resetTokenExp := Some(now + ResetTtlMs),
                                         updatedAt := now)
              && forall j :: 0 <= j < |users| && j != i ==> r.users[j] == users[j]
  {
    var user := if email == "" then None else FindUserByEmail(users, email);
    if user.Some? then Step(Done, SetResetToken(users, email, token, now + ResetTtlMs, now).users)
    else Step(Done, users)
  }

  /** The patch a successful reset applies. */
  function ResetPatch(hash: string): Patch {
    NoChange.(passwordHash := Some(hash), resetToken := Some(None), resetTokenExp := Some(None))
  }

  /** POST /reset: 400 with no change on a missing field, an unknown token,
      a missing expiry, or an expiry strictly before now; otherwise the new
      password hash is stored and the token and its expiry are cleared. */
  function Reset(users: seq<User>, token: string, password: string, hash: string, now: Time): (r: Step)
    ensures r.reply.Fail? || r.reply.Done?
    ensures r.reply.Fail? ==> r.reply == Fail(BadRequest) && r.users == users
    ensures r.reply.Done? <==>
              && token != "" && password != ""
              && var u := FindUserByResetToken(users, token);
              && u.Some? && u.value.resetTokenExp.Some? && now <= u.value.resetTokenExp.value
    ensures r.reply.Done? ==>
              var u := FindUserByResetToken(users, token).value;
              r.users == UpdateUserById(users, u.id, ResetPatch(hash), now).users
  {
    if token == "" || password == "" then Step(Fail(BadRequest), users)
    else
      match FindUserByResetToken(users, token)
      case None => Step(Fail(BadRequest), users)
      case Some(u) =>
        if u.resetTokenExp.None? || u.resetTokenExp.value < now then Step(Fail(BadRequest), users)
        else Step(Done, UpdateUserById(users, u.id, ResetPatch(hash), now).users)
  }

  /** No two accounts share an id. Ids are random, and the model takes their
      distinctness as given where a property depends on it. */
  ghost predicate UniqueIds(users: seq<User>) {
    forall j, k :: 0 <= j < k < |users| ==> users[j].id != users[k].id
  }

  /** No two accounts hold the same reset token. */
  ghost predicate UniqueResetTokens(users: seq<User>) {
    forall j, k :: 0 <= j < k < |users| && users[j].resetToken.Some? ==> users[j].resetToken != users[k].resetToken
  }

  /** A reset token is single-use: once a reset with it succeeded, replaying
      it fails with 400 and changes nothing. */
  lemma {:induction false} ResetTokenIsSingleUse(users: seq<User>, token: string, pw: string, pw2: string,
                                                 hash: string, hash2: string, now: Time, later: Time)
    requires UniqueIds(users) && UniqueResetTokens(users)
    requires Reset(users, token, pw, hash, now).reply.Done?
    ensures var s := Reset(users, token, pw, hash, now).users;
            Reset(s, token, pw2, hash2, later) == Step(Fail(BadRequest), s)
  {
    var i := ResetTokenIndex(users, token).value;
    var u := users[i];
    assert IdIndex(users, u.id) == Some(i);
    var s := Reset(users, token, pw, hash, now).users;
    assert s[i].resetToken.None?;
    forall j | 0 <= j < |s|
      ensures s[j].resetToken != Some(token)
    {
      if j != i {
        assert s[j] == users[j];
        if j < i {
          assert users[j].resetToken != Some(token);
        } else {
          assert users[i].resetToken != users[j].resetToken;
        }
      }
    }
  }

  /** The reset flow end to end: a token issued by /forgot for an existing
      account resets its password until fifteen minutes have passed, after
      which it is refused. */
  lemma {:induction false} ForgotThenReset(users: seq<User>, email: string, token: string, pw: string, hash: string,
                                           now: Time, later: Time)
    requires UniqueIds(users)
    requires email != "" && EmailIndex(users, email).Some?
    requires forall j :: 0 <= j < |users| ==> users[j].resetToken != Some(token)
    requires token != "" && pw != ""
    ensures var s := Forgot(users, email, token, now).users;
            var i := EmailIndex(users, email).value;
            && (later <= now + ResetTtlMs ==>
                  && Reset(s, token, pw, hash, later).reply.Done?
                  && Reset(s, token, pw, hash, later).users[i].passwordHash == hash)
            && (later > now + ResetTtlMs ==> Reset(s, token, pw, hash, later).reply == Fail(BadRequest))
  {
    var s := Forgot(users, email, token, now).users;
    var i := EmailIndex(users, email).value;
    assert s[i].resetToken == Some(token);
    assert ResetTokenIndex(s, token) == Some(i);
    assert s[i].id == users[i].id;
    assert IdIndex(s, s[i].id) == Some(i);
  }

  /* ---------------- /me and /refresh ---------------- */

  /** GET /me: the profile flags of the account named by a live
      access-secret token; 401 otherwise. The store never changes. */
  function MeRoute(users: seq<User>, header: string, decode: Decoder, now: Time): (r: Step)
    ensures r.users == users
    ensures r.reply.Fail? || r.reply.Me?
    ensures r.reply.Fail? ==> r.reply == Fail(Unauthorized)
    ensures r.reply.Me? <==>
              && AccessClaims(header, decode, now).Some?
              && exists j :: 0 <= j < |users| && users[j].id == AccessClaims(header, decode, now).value.sub
    ensures r.reply.Me? ==> r.reply.profile == ProfileOf(FindUserById(users, AccessClaims(header, decode, now).value.sub).value)
  {
    match AccessClaims(header, decode, now)
    case None => Step(Fail(Unauthorized), users)
    case Some(c) =>
      match FindUserById(users, c.sub)
      case None => Step(Fail(Unauthorized), users)
      case Some(u) => Step(Me(ProfileOf(u)), users)
  }

  /** POST /refresh: 400 without a token; 401 unless it verifies with the
      refresh secret and names a stored user; otherwise a new token pair
      whose payload is read from the store, so it carries the user's current
      role rather than the one in the old token. */
  function Refresh(users: seq<User>, refreshToken: string, decode: Decoder, now: Time): (r: Step)
    ensures r.users == users
    ensures r.reply.Fail? || r.reply.Refreshed?
    ensures r.reply.Fail? ==> r.reply == Fail(BadRequest) || r.reply == Fail(Unauthorized)
    ensures r.reply == Fail(BadRequest) <==> refreshToken == ""
    ensures r.reply.Refreshed? <==>
              && refreshToken != ""
              && var c := Verify(RefreshKey, decode(refreshToken), now);
              && c.Some? && FindUserById(users, c.value.sub).Some?
    ensures r.reply.Refreshed? ==>
              && var c := Verify(RefreshKey, decode(refreshToken), now);
              && c.Some?
              && var u := FindUserById(users, c.value.sub);
              && u.Some?
              && Verify(AccessKey, r.reply.tokens.access, now) == Some(SessionOf(u.value))
              && Verify(RefreshKey, r.reply.tokens.refresh, now) == Some(SessionOf(u.value))
  {
    if refreshToken == "" then Step(Fail(BadRequest), users)
    else
      match Verify(RefreshKey, decode(refreshToken), now)
      case None => Step(Fail(Unauthorized), users)
      case Some(c) =>
        match FindUserById(users, c.sub)
        case None => Step(Fail(Unauthorized), users)
        case Some(u) => Step(Refreshed(SignTokens(SessionOf(u), now)), users)
  }

  /** Where the code departs from the intended design: the stage token that
      login hands out after the password alone is signed with the access
      secret, so `verifyAccess` takes it, and within its three minutes it
      opens /2fa/setup, which stages a new secret for the account without
      any TOTP code. */
  lemma StageTokenOpensSetup(users: seq<User>, email: string, password: string, compare: PasswordCheck,
                             s: string, decode: Decoder, secret: string, issued: Time, now: Time)
    requires Login(users, email, password, compare, issued).reply.Challenge?
    requires s != "" && decode(s) == Login(users, email, password, compare, issued).reply.tempToken
    requires Seconds(now) < Seconds(issued) + StageTtl
    ensures TwoFactorSetup(users, BearerPrefix + s, decode, secret, now).reply == Enrollment(secret)
  {
    var u := FindUserByEmail(users, email).value;
    AccessCheckAcceptsStageToken(u.id, s, decode, issued, now);
    assert u in users;
  }

  /** /me answers from the store, not from the token: the access token of a
      session opened at `issued` shows, in whatever store holds by then, the
      current record of that account, and 401 once no record has its id. */
  lemma {:induction false} SessionTokenReadsCurrentProfile(users: seq<User>, email: string, password: string,
                                                           compare: PasswordCheck, s: string, decode: Decoder,
                                                           later: seq<User>, issued: Time, now: Time)
    requires Login(users, email, password, compare, issued).reply.Session?
    requires s != "" && decode(s) == Login(users, email, password, compare, issued).reply.tokens.access
    requires Seconds(now) < Seconds(issued) + AccessTtl
    ensures var id := FindUserByEmail(users, email).value.id;
            MeRoute(later, BearerPrefix + s, decode, now).reply ==
              if IdIndex(later, id).Some? then Me(ProfileOf(later[IdIndex(later, id).value]))
              else Fail(Unauthorized)
  {
    BearerRoundTrip(s);
    var u := FindUserByEmail(users, email).value;
    assert AccessClaims(BearerPrefix + s, decode, now) == Some(SessionOf(u));
  }

  /** /refresh re-reads the account: the refresh token of a session opened at
      `issued`, presented within thirty days to whatever store holds by
      then, yields tokens for the account's current record (its current
      role, say), and 401 once no record has its id. */
  lemma {:induction false} RefreshReadsCurrentRecord(users: seq<User>, email: string, password: string,
                                                     compare: PasswordCheck, s: string, decode: Decoder,
                                                     later: seq<User>, issued: Time, now: Time)
    requires Login(users, email, password, compare, issued).reply.Session?
    requires s != "" && decode(s) == Login(users, email, password, compare, issued).reply.tokens.refresh
    requires Seconds(now) < Seconds(issued) + RefreshTtl
    ensures var id := FindUserByEmail(users, email).value.id;
            Refresh(later, s, decode, now).reply ==
              if IdIndex(later, id).Some? then Refreshed(SignTokens(SessionOf(later[IdIndex(later, id).value]), now))
              else Fail(Unauthorized)
  {
    var u := FindUserByEmail(users, email).value;
    assert Verify(RefreshKey, decode(s), now) == Some(SessionOf(u));
  }
}

=== FILE: common.dfy ===
/**
  Values shared by every part of the model: JavaScript's nullable values,
  the wall clock, truthiness of optional strings, and a first-match search.
 */
module Common {

  /** A value that may be null or undefined in the JavaScript source. */
  datatype Option<+T> = None | Some(value: T)

  /** The HTTP status codes the routes answer errors with. */
  const BadRequest: nat := 400
  const Unauthorized: nat := 401
  const Forbidden: nat := 403
  const NotFound: nat := 404
  const Conflict: nat := 409

  /** Milliseconds since the Unix epoch, as `Date.now()` returns them. */
  type Time = int

  /** JavaScript truthiness of a nullable string: null, undefined and "" are falsy. */
  predicate Truthy(o: Option<string>) {
    o.Some? && o.value != ""
  }

  /** The value of a present option, or the default: `o ?? d`. */
  function Pick<T>(o: Option<T>, d: T): T {
    match o
    case Some(v) => v
    case None => d
  }

  /** `Array.prototype.findIndex`: the position of the first element satisfying `p`. */
  function FirstIndex<T>(s: seq<T>, p: T -> bool): (r: Option<nat>)
    ensures r.Some? ==> r.value < |s| && p(s[r.value])
    ensures r.Some? ==> forall j :: 0 <= j < r.value ==> !p(s[j])
    ensures r.None? <==> forall j :: 0 <= j < |s| ==> !p(s[j])
    decreases |s|
  {
    if |s| == 0 then None
    else if p(s[0]) then Some(0)
    else
      match FirstIndex(s[1..], p)
      case None => None
      case Some(k) => Some(k + 1)
  }
}

=== FILE: db.dfy ===
/**
  The user record store of the backend: a list of user records kept in one
  JSON document. The document is an in-memory sequence here, and every
  mutation is a pure function from the old sequence to the new one.
 */
module Db {
  import opened Common
  import opened Text

  /** One registered account, with the field names of the stored document. */
  datatype User = User(
    id: string,
    name: string,
    email: string,
    passwordHash: string,
    role: string,                     // the granted role
    requestedRole: Option<string>,    // the role asked for, awaiting review
    approved: bool,
    createdAt: Time,
    updatedAt: Time,
    twoFAEnabled: bool,
    twoFASecret: Option<string>,      // the confirmed TOTP secret
    twoFASetupTemp: Option<string>,   // a TOTP secret awaiting its first code
    twoFASetupRequired: bool,
    resetToken: Option<string>,
    resetTokenExp: Option<Time>)

  const ClientRole: string := "client"

  /* ---------------- Queries ---------------- */

  /** Position of the first user whose e-mail equals `email` ignoring case. */
  function EmailIndex(users: seq<User>, email: string): (r: Option<nat>)
    ensures r.Some? ==> r.value < |users| && SameIgnoringCase(users[r.value].email, email)
    ensures r.Some? ==> forall j :: 0 <= j < r.value ==> !SameIgnoringCase(users[j].email, email)
    ensures r.None? <==> forall j :: 0 <= j < |users| ==> !SameIgnoringCase(users[j].email, email)
  {
    FirstIndex(users, (u: User) => SameIgnoringCase(u.email, email))
  }

  /** Position of the first user with this id. */
  function IdIndex(users: seq<User>, id: string): (r: Option<nat>)
    ensures r.Some? ==> r.value < |users| && users[r.value].id == id
    ensures r.Some? ==> forall j :: 0 <= j < r.value ==> users[j].id != id
    ensures r.None? <==> forall j :: 0 <= j < |users| ==> users[j].id != id
  {
    FirstIndex(users, (u: User) => u.id == id)
  }

  /** Position of the first user holding this reset token. */
  function ResetTokenIndex(users: seq<User>, token: string): (r: Option<nat>)
    ensures r.Some? ==> r.value < |users| && users[r.value].resetToken == Some(token)
    ensures r.Some? ==> forall j :: 0 <= j < r.value ==> users[j].resetToken != Some(token)
    ensures r.None? <==> forall j :: 0 <= j < |users| ==> users[j].resetToken != Some(token)
  {
    FirstIndex(users, (u: User) => u.resetToken == Some(token))
  }

  function At(users: seq<User>, i: Option<nat>): Option<User>
    requires i.Some? ==> i.value < |users|
  {
    match i
    case Some(k) => Some(users[k])
    case None => None
  }

  /** `findUserByEmail`: the first stored user whose e-mail matches ignoring
      case, or null when none does. */
  function FindUserByEmail(users: seq<User>, email: string): (r: Option<User>)
    ensures r.Some? ==> r.value in users && SameIgnoringCase(r.value.email, email)
    ensures r.None? <==> forall u :: u in users ==> !SameIgnoringCase(u.email, email)
    ensures r.Some? ==> r.value == users[EmailIndex(users, email).value]
  {
    At(users, EmailIndex(users, email))
  }

  /** `findUserById` */
  function FindUserById(users: seq<User>, id: string): (r: Option<User>)
    ensures r.Some? ==> r.value in users && r.value.id == id
    ensures r.None? <==> forall u :: u in users ==> u.id != id
    ensures r.Some? ==> r.value == users[IdIndex(users, id).value]
  {
    At(users, IdIndex(users, id))
  }

  /** `findUserByResetToken`: a stored null token never matches. */
  function FindUserByResetToken(users: seq<User>, token: string): (r: Option<User>)
    ensures r.Some? ==> r.value in users && r.value.resetToken == Some(token)
    ensures r.None? <==> forall u :: u in users ==> u.resetToken != Some(token)
    ensures r.Some? ==> r.value == users[ResetTokenIndex(users, token).value]
  {
    At(users, ResetTokenIndex(users, token))
  }

  /* ---------------- Creation ---------------- */

  /** The argument object of `createUser`, defaults already applied. */
  datatype Draft = Draft(
    name: string,
    email: string,
    passwordHash: string,
    role: string,
    requestedRole: Option<string>,
    twoFASetupRequired: bool)

  /** `createUser({ name, email, passwordHash })`: every optional field at its default. */
  function RegistrationDraft(name: string, email: string, passwordHash: string): Draft {
    Draft(name, email, passwordHash, ClientRole, Some(ClientRole), false)
  }

  datatype Created = EmailTaken | Created(user: User, users: seq<User>)

  /** `createUser`: fails with `exists` when any stored e-mail equals the new
      one ignoring case; otherwise appends one fresh record. The random id and
      the clock are parameters. */
  function CreateUser(users: seq<User>, d: Draft, id: string, now: Time): (r: Created)
    ensures r.EmailTaken? <==> exists j :: 0 <= j < |users| && SameIgnoringCase(users[j].email, d.email)
    ensures r.Created? ==> r.users == users + [r.user]
    ensures r.Created? ==> r.user.id == id && r.user.name == d.name && r.user.email == d.email
    ensures r.Created? ==> r.user.passwordHash == d.passwordHash && r.user.role == d.role
    ensures r.Created? ==> r.user.requestedRole == d.requestedRole && !r.user.approved
    ensures r.Created? ==> r.user.createdAt == now && r.user.updatedAt == now
    ensures r.Created? ==> !r.user.twoFAEnabled && r.user.twoFASecret.None? && r.user.twoFASetupTemp.None?
    ensures r.Created? ==> r.user.twoFASetupRequired == d.twoFASetupRequired
    ensures r.Created? ==> r.user.resetToken.None? && r.user.resetTokenExp.None?
  {
    if EmailIndex(users, d.email).Some? then EmailTaken
    else
      var u := User(id, d.name, d.email, d.passwordHash, d.role, d.requestedRole, false,
                    now, now, false, None, None, d.twoFASetupRequired, None, None);
      Created(u, users + [u])
  }

  /* ---------------- Updates ---------------- */

  /** The fields a caller of `updateUserById` may patch. `None` leaves a field
      out of the patch object; `Some(None)` patches it to null. */
  datatype Patch = Patch(
    passwordHash: Option<string>,
    role: Option<string>,
    requestedRole: Option<Option<string>>,
    approved: Option<bool>,
    twoFAEnabled: Option<bool>,
    twoFASecret: Option<Option<string>>,
    twoFASetupTemp: Option<Option<string>>,
    twoFASetupRequired: Option<bool>,
    resetToken: Option<Option<string>>,
    resetTokenExp: Option<Option<Time>>)

  const NoChange: Patch := Patch(None, None, None, None, None, None, None, None, None, None)

  /** `{ ...user, ...patch, updatedAt: now }` */
  function ApplyPatch(u: User, p: Patch, now: Time): (r: User)
    ensures r.id == u.id && r.name == u.name && r.email == u.email && r.createdAt == u.createdAt
    ensures r.updatedAt == now
    ensures p.passwordHash.Some? ==> r.passwordHash == p.passwordHash.value
    ensures p.passwordHash.None? ==> r.passwordHash == u.passwordHash
    ensures p.role.Some? ==> r.role == p.role.value
    ensures p.role.None? ==> r.role == u.role
    ensures p.requestedRole.Some? ==> r.requestedRole == p.requestedRole.value
    ensures p.requestedRole.None? ==> r.requestedRole == u.requestedRole
    ensures p.approved.Some? ==> r.approved == p.approved.value
    ensures p.approved.None? ==> r.approved == u.approved
    ensures p.twoFAEnabled.Some? ==> r.twoFAEnabled == p.twoFAEnabled.value
    ensures p.twoFAEnabled.None? ==> r.twoFAEnabled == u.twoFAEnabled
    ensures p.twoFASecret.Some? ==> r.twoFASecret == p.twoFASecret.value
    ensures p.twoFASecret.None? ==> r.twoFASecret == u.twoFASecret
    ensures p.twoFASetupTemp.Some? ==> r.twoFASetupTemp == p.twoFASetupTemp.value
    ensures p.twoFASetupTemp.None? ==> r.twoFASetupTemp == u.twoFASetupTemp
    ensures p.twoFASetupRequired.Some? ==> r.twoFASetupRequired == p.twoFASetupRequired.value
    ensures p.twoFASetupRequired.None? ==> r.twoFASetupRequired == u.twoFASetupRequired
    ensures p.resetToken.Some? ==> r.resetToken == p.resetToken.value
    ensures p.resetToken.None? ==> r.resetToken == u.resetToken
    ensures p.resetTokenExp.Some? ==> r.resetTokenExp == p.resetTokenExp.value
    ensures p.resetTokenExp.None? ==> r.resetTokenExp == u.resetTokenExp
  {
    u.(passwordHash := Pick(p.passwordHash, u.passwordHash),
       role := Pick(p.role, u.role),
       requestedRole := Pick(p.requestedRole, u.requestedRole),
       approved := Pick(p.approved, u.approved),
       twoFAEnabled := Pick(p.twoFAEnabled, u.twoFAEnabled),
       twoFASecret := Pick(p.twoFASecret, u.twoFASecret),
       twoFASetupTemp := Pick(p.twoFASetupTemp, u.twoFASetupTemp),
       twoFASetupRequired := Pick(p.twoFASetupRequired, u.twoFASetupRequired),
       resetToken := Pick(p.resetToken, u.resetToken),
       resetTokenExp := Pick(p.resetTokenExp, u.resetTokenExp),
       updatedAt := now)
  }

  /** Applying the same patch twice gives the record of applying it once,
      apart from the timestamp. */
  lemma PatchIsIdempotent(u: User, p: Patch, t1: Time, t2: Time)
    ensures ApplyPatch(ApplyPatch(u, p, t1), p, t2) == ApplyPatch(u, p, t2)
  {
  }

  /** The result of a store write: the written record (null when no record
      matched) and the new store. */
  datatype Write = Write(user: Option<User>, users: seq<User>)

  /** `updateUserById`: null and no change when the id is absent; otherwise
      the first record with that id is merged with the patch and nothing
      else changes. */
  function UpdateUserById(users: seq<User>, id: string, p: Patch, now: Time): (r: Write)
    ensures |r.users| == |users|
    ensures r.user.None? <==> forall j :: 0 <= j < |users| ==> users[j].id != id
    ensures r.user.None? ==> r.users == users
    ensures IdIndex(users, id).Some? ==>
              var i := IdIndex(users, id).value;
              && r.users[i] == ApplyPatch(users[i], p, now)
              && r.user == Some(r.users[i])
              && forall j :: 0 <= j < |users| && j != i ==> r.users[j] == users[j]
  {
    match IdIndex(users, id)
    case None => Write(None, users)
    case Some(i) =>
      var u := ApplyPatch(users[i], p, now);
      Write(Some(u), users[i := u])
  }

  /** `setResetToken`: stores a token and its expiry on the first user whose
      e-mail matches ignoring case; only `resetToken`, `resetTokenExp` and
      `updatedAt` of that user change. */
  function SetResetToken(users: seq<User>, email: string, token: string, exp: Time, now: Time): (r: Write)
    ensures |r.users| == |users|
    ensures r.user.None? <==> forall j :: 0 <= j < |users| ==> !SameIgnoringCase(users[j].email, email)
    ensures r.user.None? ==> r.users == users
    ensures EmailIndex(users, email).Some? ==>
              var i := EmailIndex(users, email).value;
              && r.users[i] == users[i].(resetToken := Some(token), resetTokenExp := Some(exp), updatedAt := now)
              && r.user == Some(r.users[i])
              && forall j :: 0 <= j < |users| && j != i ==> r.users[j] == users[j]
  {
    match EmailIndex(users, email)
    case None => Write(None, users)
    case Some(i) =>
      var u := users[i].(resetToken := Some(token), resetTokenExp := Some(exp), updatedAt := now);
      Write(Some(u), users[i := u])
  }

  /** A new reset token supersedes the old one: the user it was stored on no
      longer holds any other token, so an earlier token no longer finds that
      user, and finds nobody when that user was its only holder. */
  lemma NewResetTokenSupersedesOld(users: seq<User>, email: string, earlier: string, token: string, exp: Time, now: Time)
    requires earlier != token
    requires EmailIndex(users, email).Some?
    ensures var i := EmailIndex(users, email).value;
            var r := SetResetToken(users, email, token, exp, now);
            && ResetTokenIndex(r.users, earlier) != Some(i)
            && ((forall j :: 0 <= j < |users| && j != i ==> users[j].resetToken != Some(earlier))
                ==> FindUserByResetToken(r.users, earlier).None?)
  {
    var i := EmailIndex(users, email).value;
    var r := SetResetToken(users, email, token, exp, now);
    assert r.users[i].resetToken == Some(token);
  }

  /* ---------------- Admin listing ---------------- */

  /** `!!u.requestedRole && u.approved === false` */
  predicate IsPending(u: User) {
    Truthy(u.requestedRole) && !u.approved
  }

  /** `listPendingRoleRequests`: exactly the pending users, in store order. */
  function ListPendingRoleRequests(users: seq<User>): (r: seq<User>)
    ensures |r| <= |users|
    ensures forall u :: u in r <==> u in users && IsPending(u)
    ensures |users| == 1 ==> r == if IsPending(users[0]) then users else []
  {
    if |users| == 0 then []
    else
      var rest := ListPendingRoleRequests(users[1..]);
      assert forall u :: u in users <==> u == users[0] || u in users[1..];
      if IsPending(users[0]) then [users[0]] + rest else rest
  }

  /** The listing keeps store order and each record's multiplicity: it
      distributes over concatenation, and a single record is listed once
      when pending and not at all otherwise. */
  lemma {:induction false} ListPendingAppend(a: seq<User>, b: seq<User>)
    ensures ListPendingRoleRequests(a + b) == ListPendingRoleRequests(a) + ListPendingRoleRequests(b)
    decreases |a|
  {
    if a == [] {
      assert a + b == b;
    } else {
      assert (a + b)[0] == a[0];
      assert (a + b)[1..] == a[1..] + b;
      ListPendingAppend(a[1..], b);
    }
  }
}

=== FILE: dev_routes.dfy ===
/**
  The developer dashboard routes: a bearer-token middleware that seeds the
  caller's demo tasks, then the summary, task, task-log and daily-log
  handlers over the store of `DevStore`. The random ids the handlers draw
  arrive inside the request.
 */
module DevRoutes {
  import opened Common
  import opened Text
  import opened Tokens
  import opened DevStore

  datatype Request =
    | SummaryReq
    | TasksReq
    | TaskReq(taskId: string)
    | StatusReq(taskId: string, next: string)
    | AddLogReq(taskId: string, text: string, logId: string)
    | DeleteLogReq(taskId: string, logId: string)
    | DailyReq
    | AddDailyReq(text: string, dailyId: string)
    | DeleteDailyReq(dailyId: string)

  datatype Summary = Summary(assignedCount: nat, completed: nat, review: nat, score: nat)

  datatype DevReply =
    | DevFail(status: nat)
    | SummaryBody(summary: Summary)
    | TaskList(tasks: seq<Task>)
    | TaskBody(task: Task)
    | LogBody(log: LogItem)
    | DailyList(entries: seq<Daily>)
    | DailyBody(entry: Daily)
    | DevOk

  datatype DevStep = DevStep(reply: DevReply, db: DevDb)

  /* ---------------- GET /summary ---------------- */

  /** `tasks.filter(t => t.status === status).length` */
  function CountStatus(tasks: seq<Task>, status: string): (n: nat)
    ensures n <= |tasks|
    ensures n == 0 <==> forall j :: 0 <= j < |tasks| ==> tasks[j].status != status
    ensures n == |tasks| <==> forall j :: 0 <= j < |tasks| ==> tasks[j].status == status
    ensures |tasks| == 1 ==> n == if tasks[0].status == status then 1 else 0
  {
    if tasks == [] then 0
    else
      var rest := CountStatus(tasks[1..], status);
      assert forall j :: 1 <= j < |tasks| ==> tasks[j] == tasks[1..][j - 1];
      (if tasks[0].status == status then 1 else 0) + rest
  }

  /** Counting distributes over concatenation; with the one-task case above
      this fixes the count as the number of tasks with that status. */
  lemma {:induction false} CountStatusAppend(a: seq<Task>, b: seq<Task>, status: string)
    ensures CountStatus(a + b, status) == CountStatus(a, status) + CountStatus(b, status)
    decreases |a|
  {
    if a == [] {
      assert a + b == b;
    } else {
      assert (a + b)[0] == a[0];
      assert (a + b)[1..] == a[1..] + b;
      CountStatusAppend(a[1..], b, status);
    }
  }

  /** A task has one status, so the counts of two different statuses never
      exceed the number of tasks together. */
  lemma {:induction false} CountsAreDisjoint(tasks: seq<Task>, a: string, b: string)
    requires a != b
    ensures CountStatus(tasks, a) + CountStatus(tasks, b) <= |tasks|
    decreases |tasks|
  {
    if tasks != [] {
      CountsAreDisjoint(tasks[1..], a, b);
    }
  }

  /** The summary of a task list: completed tasks score 10, tasks in review 5. */
  function SummaryOf(tasks: seq<Task>): (s: Summary)
    ensures s.assignedCount == |tasks|
    ensures s.completed == CountStatus(tasks, Completed) && s.review == CountStatus(tasks, InReview)
    ensures s.completed + s.review <= s.assignedCount
    ensures s.score == 10 * s.completed + 5 * s.review
    ensures s.score <= 10 * s.assignedCount
    ensures s.score == 10 * s.assignedCount <==> forall j :: 0 <= j < |tasks| ==> tasks[j].status == Completed
  {
    var c := CountStatus(tasks, Completed);
    var v := CountStatus(tasks, InReview);
    CountsAreDisjoint(tasks, Completed, InReview);
    Summary(|tasks|, c, v, 10 * c + 5 * v)
  }

  /** Appending a task moves the summary by that task alone: one more
      assigned, and 10 points for a completed task, 5 for one in review,
      none for a waiting one. */
  lemma {:induction false} SummaryOfAppend(tasks: seq<Task>, t: Task)
    ensures var s := SummaryOf(tasks);
            var s' := SummaryOf(tasks + [t]);
            && s'.assignedCount == s.assignedCount + 1
            && s'.completed == s.completed + (if t.status == Completed then 1 else 0)
            && s'.review == s.review + (if t.status == InReview then 1 else 0)
            && s'.score == s.score + (if t.status == Completed then 10 else if t.status == InReview then 5 else 0)
  {
    CountStatusAppend(tasks, [t], Completed);
    CountStatusAppend(tasks, [t], InReview);
  }

  /* ---------------- Task handlers ---------------- */

  /** PUT /tasks/:id/status: 404 when the caller has no such task, 400 for a
      status other than the three known ones; otherwise the task gets the
      status and a fresh `updatedAt`, in place, and nothing else changes. */
  function UpdateStatus(db: DevDb, uid: string, taskId: string, next: string, now: Time): (r: DevStep)
    ensures var s := EnsureDevSeed(db, uid, now);
            && (r.reply.DevFail? ==> r.db == s)
            && (r.reply == DevFail(NotFound) <==> TaskIndex(s.tasks, uid, taskId).None?)
            && (r.reply == DevFail(BadRequest) <==> TaskIndex(s.tasks, uid, taskId).Some? && next !in Statuses)
            && (r.reply.DevFail? || r.reply == DevOk)
            && (r.reply == DevOk <==> TaskIndex(s.tasks, uid, taskId).Some? && next in Statuses)
            && (r.reply == DevOk ==>
                  && next in Statuses
                  && var i := TaskIndex(s.tasks, uid, taskId).value;
                  && r.db.daily == db.daily
                  && |r.db.tasks| == |s.tasks|
                  && r.db.tasks[i] == s.tasks[i].(status := next, updatedAt := now)
                  && forall j :: 0 <= j < |s.tasks| && j != i ==> r.db.tasks[j] == s.tasks[j])
  {
    var got := GetTask(db, uid, taskId, now);
    match got.value
    case None => DevStep(DevFail(NotFound), got.db)
    case Some(t) =>
      if next !in Statuses then DevStep(DevFail(BadRequest), got.db)
      else DevStep(DevOk, SaveTask(got.db, uid, t.(status := next, updatedAt := now), now))
  }

  /** The `by` of a new log: the caller's e-mail, or "you" without one. */
  function LogAuthor(email: Option<string>): (r: string)
    ensures r != ""
    ensures Truthy(email) ==> r == email.value
    ensures !Truthy(email) ==> r == "you"
  {
    if Truthy(email) then email.value else "you"
  }

  /** POST /tasks/:id/logs: 404 without the task, 400 when the text is blank
      once trimmed; otherwise one entry with the trimmed text is appended to
      the task's logs, the task's `updatedAt` moves, and the entry is
      answered. */
  function AddTaskLog(db: DevDb, uid: string, email: Option<string>, taskId: string, text: string,
                      logId: string, now: Time): (r: DevStep)
    ensures var s := EnsureDevSeed(db, uid, now);
            && (r.reply.DevFail? ==> r.db == s)
            && (r.reply == DevFail(NotFound) <==> TaskIndex(s.tasks, uid, taskId).None?)
            && (r.reply == DevFail(BadRequest) <==> TaskIndex(s.tasks, uid, taskId).Some? && Trim(text) == [])
            && (r.reply.DevFail? || r.reply.LogBody?)
            && (r.reply.LogBody? <==> TaskIndex(s.tasks, uid, taskId).Some? && Trim(text) != [])
            && (r.reply.LogBody? ==>
                  && var item := r.reply.log;
                  && item == LogItem(logId, Trim(text), now, LogAuthor(email))
                  && item.text != []
                  && var i := TaskIndex(s.tasks, uid, taskId).value;
                  && r.db.daily == db.daily
                  && |r.db.tasks| == |s.tasks|
                  && r.db.tasks[i] == s.tasks[i].(logs := s.tasks[i].logs + [item], updatedAt := now)
                  && forall j :: 0 <= j < |s.tasks| && j != i ==> r.db.tasks[j] == s.tasks[j])
  {
    var got := GetTask(db, uid, taskId, now);
    match got.value
    case None => DevStep(DevFail(NotFound), got.db)
    case Some(t) =>
      var body := Trim(text);
      if body == [] then DevStep(DevFail(BadRequest), got.db)
      else
        var item := LogItem(logId, body, now, LogAuthor(email));
        DevStep(LogBody(item), SaveTask(got.db, uid, t.(logs := t.logs + [item], updatedAt := now), now))
  }

  /** `logs.filter(l => l.id !== logId)` */
  function DropLog(logs: seq<LogItem>, logId: string): (r: seq<LogItem>)
    ensures |r| <= |logs|
    ensures forall l :: l in r <==> l in logs && l.id != logId
    ensures (forall j :: 0 <= j < |logs| ==> logs[j].id != logId) ==> r == logs
  {
    if logs == [] then []
    else
      var rest := DropLog(logs[1..], logId);
      assert forall l :: l in logs <==> l == logs[0] || l in logs[1..];
      if logs[0].id == logId then rest
      else
        assert logs == [logs[0]] + logs[1..];
        [logs[0]] + rest
  }

  /** The logs that stay keep their order: dropping distributes over
      concatenation. */
  lemma {:induction false} DropLogAppend(a: seq<LogItem>, b: seq<LogItem>, logId: string)
    ensures DropLog(a + b, logId) == DropLog(a, logId) + DropLog(b, logId)
    decreases |a|
  {
    if a == [] {
      assert a + b == b;
    } else {
      assert (a + b)[0] == a[0];
      assert (a + b)[1..] == a[1..] + b;
      DropLogAppend(a[1..], b, logId);
    }
  }

  /** DELETE /tasks/:id/logs/:logId: 404 without the task; otherwise every
      log with that id is dropped, the rest kept, and `updatedAt` moves even
      when no log matched. */
  function DeleteTaskLog(db: DevDb, uid: string, taskId: string, logId: string, now: Time): (r: DevStep)
    ensures var s := EnsureDevSeed(db, uid, now);
            && (r.reply == DevFail(NotFound) <==> TaskIndex(s.tasks, uid, taskId).None?)
            && (r.reply.DevFail? ==> r.db == s)
            && (r.reply.DevFail? || r.reply == DevOk)
            && (r.reply == DevOk <==> TaskIndex(s.tasks, uid, taskId).Some?)
            && (r.reply == DevOk ==>
                  && var i := TaskIndex(s.tasks, uid, taskId).value;
                  && r.db.daily == db.daily
                  && |r.db.tasks| == |s.tasks|
                  && r.db.tasks[i].id == taskId
                  && r.db.tasks[i].updatedAt == now
                  && r.db.tasks[i].logs == DropLog(s.tasks[i].logs, logId)
                  && r.db.tasks[i] == s.tasks[i].(logs := r.db.tasks[i].logs, updatedAt := now)
                  && forall j :: 0 <= j < |s.tasks| && j != i ==> r.db.tasks[j] == s.tasks[j])
  {
    var got := GetTask(db, uid, taskId, now);
    match got.value
    case None => DevStep(DevFail(NotFound), got.db)
    case Some(t) => DevStep(DevOk, SaveTask(got.db, uid, t.(logs := DropLog(t.logs, logId), updatedAt := now), now))
  }

  /* ---------------- Daily-log handlers ---------------- */

  /** POST /daily-logs: 400 and no write when the text is blank once
      trimmed; otherwise the trimmed text is prepended as the caller's entry. */
  function PostDaily(db: DevDb, uid: string, text: string, dailyId: string, now: Time): (r: DevStep)
    ensures Trim(text) == [] <==> r.reply == DevFail(BadRequest)
    ensures r.reply.DevFail? ==> r.db == db
    ensures r.reply.DevFail? || r.reply.DailyBody?
    ensures r.reply.DailyBody? <==> Trim(text) != []
    ensures r.reply.DailyBody? ==>
              && r.reply.entry == Daily(dailyId, uid, Trim(text), now)
              && r.db.daily == [r.reply.entry] + db.daily
              && r.db.tasks == EnsureDevSeed(db, uid, now).tasks
  {
    var body := Trim(text);
    if body == [] then DevStep(DevFail(BadRequest), db)
    else
      var added := AddDaily(db, uid, body, dailyId, now);
      TrimIdempotent(text);
      DevStep(DailyBody(added.value), added.db)
  }

  /* ---------------- Middleware and dispatch ---------------- */

  /** `requireAuth`: the access-token payload, or nothing (401). */
  datatype Gate = Denied | Admitted(user: Claims, db: DevDb)

  function RequireAuth(db: DevDb, header: string, decode: Decoder, now: Time): (g: Gate)
    ensures g.Denied? <==> AccessClaims(header, decode, now).None?
    ensures g.Admitted? ==> g.user == AccessClaims(header, decode, now).value
                            && g.db == EnsureDevSeed(db, g.user.sub, now)
  {
    match AccessClaims(header, decode, now)
    case None => Denied
    case Some(c) => Admitted(c, EnsureDevSeed(db, c.sub, now))
  }

  /** One request to the dashboard router. */
  function Handle(db: DevDb, header: string, decode: Decoder, now: Time, req: Request): (r: DevStep)
    ensures r.reply == DevFail(Unauthorized) <==> AccessClaims(header, decode, now).None?
    ensures r.reply == DevFail(Unauthorized) ==> r.db == db
    ensures r.reply != DevFail(Unauthorized) ==> HasTasks(r.db.tasks, AccessClaims(header, decode, now).value.sub)
    ensures r.reply.TaskList? ==> |r.reply.tasks| > 0
    ensures r.reply.SummaryBody? ==> r.reply.summary.assignedCount > 0
    ensures AccessClaims(header, decode, now).Some? ==>
              var uid := AccessClaims(header, decode, now).value.sub;
              var s := EnsureDevSeed(db, uid, now);
              && (req.SummaryReq? ==> r == DevStep(SummaryBody(SummaryOf(OwnedTasks(s.tasks, uid))), s))
              && (req.TasksReq? ==> r == DevStep(TaskList(OwnedTasks(s.tasks, uid)), s))
              && (req.TaskReq? ==>
                    && r.db == s
                    && (r.reply == DevFail(NotFound) <==> TaskIndex(s.tasks, uid, req.taskId).None?)
                    && (TaskIndex(s.tasks, uid, req.taskId).Some? ==>
                          r.reply == TaskBody(s.tasks[TaskIndex(s.tasks, uid, req.taskId).value])))
              && (req.DailyReq? ==> r == DevStep(DailyList(DailyOf(s.daily, uid)), s))
              && (req.StatusReq? ==> r == UpdateStatus(s, uid, req.taskId, req.next, now))
              && (req.AddLogReq? ==> r == AddTaskLog(s, uid, AccessClaims(header, decode, now).value.email,
                                                     req.taskId, req.text, req.logId, now))
              && (req.DeleteLogReq? ==> r == DeleteTaskLog(s, uid, req.taskId, req.logId, now))
              && (req.AddDailyReq? ==> r == PostDaily(s, uid, req.text, req.dailyId, now))
              && (req.DeleteDailyReq? ==> r == DevStep(DevOk, RemoveDaily(s, uid, req.dailyId, now)))
  {
    match RequireAuth(db, header, decode, now)
    case Denied => DevStep(DevFail(Unauthorized), db)
    case Admitted(c, s) =>
      var uid := c.sub;
      var r := match req
        case SummaryReq =>
          var got := GetTasks(s, uid, now);
          DevStep(SummaryBody(SummaryOf(got.value)), got.db)
        case TasksReq =>
          var got := GetTasks(s, uid, now);
          DevStep(TaskList(got.value), got.db)
        case TaskReq(taskId) =>
          var got := GetTask(s, uid, taskId, now);
          DevStep(if got.value.None? then DevFail(NotFound) else TaskBody(got.value.value), got.db)
        case StatusReq(taskId, next) => UpdateStatus(s, uid, taskId, next, now)
        case AddLogReq(taskId, text, logId) => AddTaskLog(s, uid, c.email, taskId, text, logId, now)
        case DeleteLogReq(taskId, logId) => DeleteTaskLog(s, uid, taskId, logId, now)
        case DailyReq =>
          var got := GetDaily(s, uid, now);
          DevStep(DailyList(got.value), got.db)
        case AddDailyReq(text, dailyId) => PostDaily(s, uid, text, dailyId, now)
        case DeleteDailyReq(dailyId) => DevStep(DevOk, RemoveDaily(s, uid, dailyId, now));
      assert HasTasks(r.db.tasks, uid) by { SavedStoreKeepsSeed(s, r.db, uid); }
      r
  }

  /** Every store the handlers leave behind for a seeded caller still holds
      a task of that caller: a saved task either replaces one of the
      caller's tasks in place or is appended. */
  lemma SavedStoreKeepsSeed(s: DevDb, r: DevDb, uid: string)
    requires HasTasks(s.tasks, uid)
    requires |r.tasks| >= |s.tasks|
    requires forall j :: 0 <= j < |s.tasks| ==> r.tasks[j] == s.tasks[j] || r.tasks[j].assigneeId == uid
    ensures HasTasks(r.tasks, uid)
  {
    var j :| 0 <= j < |s.tasks| && s.tasks[j].assigneeId == uid;
    assert r.tasks[j].assigneeId == uid;
  }

  /** The router seeds once before it dispatches, and each write operation
      seeds again on its own; the second seeding changes nothing, so every
      write route answers what its operation answers on the unseeded store. */
  lemma WriteRoutesSeedOnce(db: DevDb, header: string, decode: Decoder, now: Time, req: Request)
    requires AccessClaims(header, decode, now).Some?
    ensures var c := AccessClaims(header, decode, now).value;
            var r := Handle(db, header, decode, now, req);
            && (req.StatusReq? ==> r == UpdateStatus(db, c.sub, req.taskId, req.next, now))
            && (req.AddLogReq? ==> r == AddTaskLog(db, c.sub, c.email, req.taskId, req.text, req.logId, now))
            && (req.DeleteLogReq? ==> r == DeleteTaskLog(db, c.sub, req.taskId, req.logId, now))
            && (req.AddDailyReq? ==> r.reply == PostDaily(db, c.sub, req.text, req.dailyId, now).reply)
            && (req.DeleteDailyReq? ==> r == DevStep(DevOk, RemoveDaily(db, c.sub, req.dailyId, now)))
            && (req.DailyReq? ==> r.reply == DailyList(DailyOf(db.daily, c.sub)))
  {
  }

  /** A request, authenticated or not, never changes the tasks or the daily
      entries of any user other than the token's subject, nor their order. */
  lemma {:induction false} RequestsAreIsolated(db: DevDb, header: string, decode: Decoder, now: Time, req: Request, other: string)
    requires AccessClaims(header, decode, now).None? || AccessClaims(header, decode, now).value.sub != other
    ensures var r := Handle(db, header, decode, now, req);
            && OwnedTasks(r.db.tasks, other) == OwnedTasks(db.tasks, other)
            && DailyOf(r.db.daily, other) == DailyOf(db.daily, other)
  {
    var r := Handle(db, header, decode, now, req);
    if AccessClaims(header, decode, now).Some? {
      var uid := AccessClaims(header, decode, now).value.sub;
      var s := EnsureDevSeed(db, uid, now);
      SeedKeepsOthersTasks(db, uid, other, now);
      assert OwnedTasks(r.db.tasks, other) == OwnedTasks(s.tasks, other) by {
        if req.StatusReq? || req.AddLogReq? || req.DeleteLogReq? {
          OwnedTasksIgnoresOthers(r.db.tasks, s.tasks, uid, other);
        }
      }
      assert DailyOf(r.db.daily, other) == DailyOf(db.daily, other) by {
        if req.AddDailyReq? && r.reply.DailyBody? {
          assert r.db.daily == [r.reply.entry] + db.daily;
          assert r.db.daily[1..] == db.daily;
        } else if req.DeleteDailyReq? {
          RemoveDailyKeepsOthers(db.daily, uid, req.dailyId, other);
        }
      }
    }
  }
}

=== FILE: dev_store.dfy ===
/**
  The per-user task and daily-log store of the backend, kept in its own
  JSON document. Every reader seeds the caller's demo tasks first, so each
  query returns the value together with the possibly seeded store.
 */
module DevStore {
  import opened Common
  import opened Text

  /** A task log entry; `author` is the stored `by` field. */
  datatype LogItem = LogItem(id: string, text: string, at: Time, author: string)

  datatype Task = Task(
    id: string,
    title: string,
    status: string,
    deadline: Time,
    assigneeId: string,
    updatedAt: Time,
    logs: seq<LogItem>)

  datatype Daily = Daily(id: string, userId: string, text: string, time: Time)

  datatype DevDb = DevDb(tasks: seq<Task>, daily: seq<Daily>)

  /** A query's answer and the store after the seeding it performed. */
  datatype Read<T> = Read(value: T, db: DevDb)

  const Waiting: string := "beklemede"
  const InReview: string := "incelemede"
  const Completed: string := "tamamlandi"

  /** The three task statuses. */
  const Statuses: seq<string> := [Waiting, InReview, Completed]

  const DayMs: int := 86400000

  /* ---------------- Seeding ---------------- */

  /** `db.tasks.some(t => t.assigneeId === userId)` */
  predicate HasTasks(tasks: seq<Task>, uid: string) {
    exists j :: 0 <= j < |tasks| && tasks[j].assigneeId == uid
  }

  /** `userId.slice(-6)`: the last six characters, or all of a shorter id. */
  function LastSix(s: string): (r: string)
    ensures |r| == if |s| <= 6 then |s| else 6
    ensures r == s[|s| - |r|..]
  {
    if |s| <= 6 then s else s[|s| - 6..]
  }

  /** The decimal digit of a number below ten, as template literals print it. */
  function DigitChar(d: nat): (c: char)
    requires d <= 9
    ensures '0' <= c <= '9' && c as int - '0' as int == d
  {
    ('0' as int + d) as char
  }

  /** The demo task `mk(idx, title, status)`: id `t<idx>-` and the last six
      characters of the user id, due `idx` days from now, assigned to the
      user, with one log entry `l<idx>a` by "system". */
  function SeedTask(uid: string, idx: nat, title: string, status: string, now: Time): (t: Task)
    requires 1 <= idx <= 3
    ensures t.assigneeId == uid && t.title == title && t.status == status
    ensures t.deadline == now + idx * DayMs && t.updatedAt == now
    ensures |t.id| == 3 + |LastSix(uid)| && t.id[0] == 't' && t.id[2] == '-' && t.id[3..] == LastSix(uid)
    ensures t.id[1] as int - '0' as int == idx
    ensures t.logs == [LogItem(['l', t.id[1], 'a'], "Görev oluşturuldu", now, "system")]
  {
    var c := DigitChar(idx);
    var id := ['t', c, '-'] + LastSix(uid);
    assert id[1] == c && id[3..] == LastSix(uid);
    Task(id, title, status, now + idx * DayMs, uid, now, [LogItem(['l', c, 'a'], "Görev oluşturuldu", now, "system")])
  }

  function SeedTasks(uid: string, now: Time): (r: seq<Task>)
    ensures |r| == 3
    ensures forall j :: 0 <= j < 3 ==> r[j].assigneeId == uid && r[j].status in Statuses && |r[j].logs| == 1
  {
    [ SeedTask(uid, 1, "Login akışını iyileştir", Waiting, now),
      SeedTask(uid, 2, "2FA QR stil düzeni", InReview, now),
      SeedTask(uid, 3, "Parola reset e-postası şablonu", Waiting, now) ]
  }

  /** `ensureDevSeed`: a user without tasks gets the three demo tasks
      appended; a user with tasks changes nothing. Daily logs are untouched. */
  function EnsureDevSeed(db: DevDb, uid: string, now: Time): (r: DevDb)
    ensures HasTasks(r.tasks, uid)
    ensures r.daily == db.daily
    ensures HasTasks(db.tasks, uid) ==> r == db
    ensures !HasTasks(db.tasks, uid) ==>
              && |r.tasks| == |db.tasks| + 3 && r.tasks[..|db.tasks|] == db.tasks
              && forall j :: |db.tasks| <= j < |r.tasks| ==>
                   r.tasks[j].assigneeId == uid && r.tasks[j].status in Statuses && |r.tasks[j].logs| == 1
  {
    if HasTasks(db.tasks, uid) then db
    else
      var seeded := db.tasks + SeedTasks(uid, now);
      assert seeded[|db.tasks|].assigneeId == uid;
      assert seeded[..|db.tasks|] == db.tasks;
      DevDb(seeded, db.daily)
  }

  /** The three demo tasks of one user carry three different ids. */
  lemma SeedIdsAreDistinct(uid: string, now: Time)
    ensures var r := SeedTasks(uid, now);
            r[0].id != r[1].id && r[0].id != r[2].id && r[1].id != r[2].id
  {
    var r := SeedTasks(uid, now);
    assert r[0].id[1] == '1' && r[1].id[1] == '2' && r[2].id[1] == '3';
  }

  /** Seeding twice is seeding once, whatever the clock says the second time. */
  lemma SeedIsIdempotent(db: DevDb, uid: string, t1: Time, t2: Time)
    ensures EnsureDevSeed(EnsureDevSeed(db, uid, t1), uid, t2) == EnsureDevSeed(db, uid, t1)
  {
  }

  /** Seeding one user leaves every other user's tasks as they were. */
  lemma {:induction false} SeedKeepsOthersTasks(db: DevDb, uid: string, other: string, now: Time)
    requires other != uid
    ensures OwnedTasks(EnsureDevSeed(db, uid, now).tasks, other) == OwnedTasks(db.tasks, other)
  {
    if !HasTasks(db.tasks, uid) {
      OwnedTasksAppend(db.tasks, SeedTasks(uid, now), other);
      var s := SeedTasks(uid, now);
      assert s == [s[0]] + ([s[1]] + [s[2]]);
      OwnedTasksAppend([s[0]], [s[1]] + [s[2]], other);
      OwnedTasksAppend([s[1]], [s[2]], other);
      assert [s[0]][1..] == [] && [s[1]][1..] == [] && [s[2]][1..] == [];
    }
  }

  /* ---------------- Tasks ---------------- */

  /** `tasks.filter(t => t.assigneeId === userId)` */
  function OwnedTasks(tasks: seq<Task>, uid: string): (r: seq<Task>)
    ensures |r| <= |tasks|
    ensures forall t :: t in r <==> t in tasks && t.assigneeId == uid
  {
    if tasks == [] then []
    else
      var rest := OwnedTasks(tasks[1..], uid);
      assert forall t :: t in tasks <==> t == tasks[0] || t in tasks[1..];
      if tasks[0].assigneeId == uid then [tasks[0]] + rest else rest
  }

  /** Filtering keeps the order of what it keeps: it distributes over
      concatenation. */
  lemma {:induction false} OwnedTasksAppend(a: seq<Task>, b: seq<Task>, uid: string)
    ensures OwnedTasks(a + b, uid) == OwnedTasks(a, uid) + OwnedTasks(b, uid)
    decreases |a|
  {
    if a == [] {
      assert a + b == b;
    } else {
      assert (a + b)[0] == a[0];
      assert (a + b)[1..] == a[1..] + b;
      OwnedTasksAppend(a[1..], b, uid);
    }
  }

  /** Two task lists that differ only in tasks assigned to `uid` give every
      other user the same tasks in the same order. */
  lemma {:induction false} OwnedTasksIgnoresOthers(a: seq<Task>, b: seq<Task>, uid: string, other: string)
    requires other != uid
    requires |a| == |b|
    requires forall j :: 0 <= j < |a| ==> a[j] == b[j] || (a[j].assigneeId == uid && b[j].assigneeId == uid)
    ensures OwnedTasks(a, other) == OwnedTasks(b, other)
    decreases |a|
  {
    if a != [] {
      OwnedTasksIgnoresOthers(a[1..], b[1..], uid, other);
    }
  }

  /** `getTasks`: after seeding, exactly the caller's tasks, never none. */
  function GetTasks(db: DevDb, uid: string, now: Time): (r: Read<seq<Task>>)
    ensures r.db == EnsureDevSeed(db, uid, now)
    ensures r.value == OwnedTasks(r.db.tasks, uid)
    ensures forall t :: t in r.value <==> t in r.db.tasks && t.assigneeId == uid
    ensures |r.value| > 0
  {
    var seeded := EnsureDevSeed(db, uid, now);
    var owned := OwnedTasks(seeded.tasks, uid);
    var j :| 0 <= j < |seeded.tasks| && seeded.tasks[j].assigneeId == uid;
    assert seeded.tasks[j] in owned;
    Read(owned, seeded)
  }

  /** Position of the task with this id assigned to this user. */
  function TaskIndex(tasks: seq<Task>, uid: string, taskId: string): (r: Option<nat>)
    ensures r.Some? ==> r.value < |tasks| && tasks[r.value].id == taskId && tasks[r.value].assigneeId == uid
    ensures r.Some? ==> forall j :: 0 <= j < r.value ==> !(tasks[j].id == taskId && tasks[j].assigneeId == uid)
    ensures r.None? <==> forall j :: 0 <= j < |tasks| ==> !(tasks[j].id == taskId && tasks[j].assigneeId == uid)
  {
    FirstIndex(tasks, (t: Task) => t.id == taskId && t.assigneeId == uid)
  }

  /** `getTask`: the caller's task with this id, or null, also when the id
      exists but the task is assigned to someone else. */
  function GetTask(db: DevDb, uid: string, taskId: string, now: Time): (r: Read<Option<Task>>)
    ensures r.db == EnsureDevSeed(db, uid, now)
    ensures r.value.Some? ==> r.value.value in r.db.tasks && r.value.value.id == taskId && r.value.value.assigneeId == uid
    ensures r.value.None? <==> forall t :: t in r.db.tasks && t.id == taskId ==> t.assigneeId != uid
    ensures r.value.Some? ==> r.value.value == r.db.tasks[TaskIndex(r.db.tasks, uid, taskId).value]
  {
    var seeded := EnsureDevSeed(db, uid, now);
    match TaskIndex(seeded.tasks, uid, taskId)
    case None => Read(None, seeded)
    case Some(i) => Read(Some(seeded.tasks[i]), seeded)
  }

  /** `saveTask`: after seeding, replaces the first task with the same id
      assigned to the caller, or appends the task when there is none; every
      other task stays where it was. */
  function SaveTask(db: DevDb, uid: string, task: Task, now: Time): (r: DevDb)
    ensures var seeded := EnsureDevSeed(db, uid, now);
            && r.daily == db.daily
            && match TaskIndex(seeded.tasks, uid, task.id)
               case None => r.tasks == seeded.tasks + [task]
               case Some(i) =>
                 && |r.tasks| == |seeded.tasks| && r.tasks[i] == task
                 && forall j :: 0 <= j < |seeded.tasks| && j != i ==> r.tasks[j] == seeded.tasks[j]
  {
    var seeded := EnsureDevSeed(db, uid, now);
    match TaskIndex(seeded.tasks, uid, task.id)
    case None => DevDb(seeded.tasks + [task], seeded.daily)
    case Some(i) => DevDb(seeded.tasks[i := task], seeded.daily)
  }

  /** Saving a task the caller read back stores exactly it: a later read
      returns the saved value. */
  lemma {:induction false} SaveThenGet(db: DevDb, uid: string, task: Task, t1: Time, t2: Time)
    requires task.assigneeId == uid
    ensures GetTask(SaveTask(db, uid, task, t1), uid, task.id, t2).value == Some(task)
  {
    var seeded := EnsureDevSeed(db, uid, t1);
    var saved := SaveTask(db, uid, task, t1);
    assert HasTasks(saved.tasks, uid) by {
      match TaskIndex(seeded.tasks, uid, task.id)
      case None =>
        assert saved.tasks[|seeded.tasks|] == task;
      case Some(i) =>
        assert saved.tasks[i] == task;
    }
    assert EnsureDevSeed(saved, uid, t2) == saved;
    match TaskIndex(seeded.tasks, uid, task.id)
    case None =>
      assert saved.tasks[|seeded.tasks|] == task;
      assert TaskIndex(saved.tasks, uid, task.id) == Some(|seeded.tasks|);
    case Some(i) =>
      assert TaskIndex(saved.tasks, uid, task.id) == Some(i);
  }

  /* ---------------- Daily logs ---------------- */

  /** `daily.filter(d => d.userId === userId)` */
  function DailyOf(daily: seq<Daily>, uid: string): (r: seq<Daily>)
    ensures |r| <= |daily|
    ensures forall d :: d in r <==> d in daily && d.userId == uid
    ensures |daily| == 1 ==> r == if daily[0].userId == uid then daily else []
  {
    if daily == [] then []
    else
      var rest := DailyOf(daily[1..], uid);
      assert forall d :: d in daily <==> d == daily[0] || d in daily[1..];
      if daily[0].userId == uid then [daily[0]] + rest else rest
  }

  /** The filter keeps store order: it distributes over concatenation. */
  lemma {:induction false} DailyOfAppend(a: seq<Daily>, b: seq<Daily>, uid: string)
    ensures DailyOf(a + b, uid) == DailyOf(a, uid) + DailyOf(b, uid)
    decreases |a|
  {
    if a == [] {
      assert a + b == b;
    } else {
      assert (a + b)[0] == a[0];
      assert (a + b)[1..] == a[1..] + b;
      DailyOfAppend(a[1..], b, uid);
    }
  }

  /** `getDaily`: the caller's daily entries, newest first as stored. */
  function GetDaily(db: DevDb, uid: string, now: Time): (r: Read<seq<Daily>>)
    ensures r.db == EnsureDevSeed(db, uid, now)
    ensures r.db.daily == db.daily
    ensures r.value == DailyOf(db.daily, uid)
    ensures forall d :: d in r.value <==> d in db.daily && d.userId == uid
  {
    var seeded := EnsureDevSeed(db, uid, now);
    Read(DailyOf(seeded.daily, uid), seeded)
  }

  /** `addDaily`: prepends one entry holding the trimmed text, the caller's
      id, the given fresh id and the time; returns that entry. */
  function AddDaily(db: DevDb, uid: string, text: string, id: string, now: Time): (r: Read<Daily>)
    ensures r.db.tasks == EnsureDevSeed(db, uid, now).tasks
    ensures r.db.daily == [r.value] + db.daily
    ensures r.value.userId == uid && r.value.id == id && r.value.time == now
    ensures r.value.text == Trim(text)
  {
    var seeded := EnsureDevSeed(db, uid, now);
    var item := Daily(id, uid, Trim(text), now);
    Read(item, DevDb(seeded.tasks, [item] + seeded.daily))
  }

  /** `daily.filter(d => !(d.userId === userId && d.id === id))` */
  function RemoveEntry(daily: seq<Daily>, uid: string, id: string): (r: seq<Daily>)
    ensures |r| <= |daily|
    ensures forall d :: d in r <==> d in daily && !(d.userId == uid && d.id == id)
    ensures |daily| == 1 ==> r == if daily[0].userId == uid && daily[0].id == id then [] else daily
  {
    if daily == [] then []
    else
      var rest := RemoveEntry(daily[1..], uid, id);
      assert forall d :: d in daily <==> d == daily[0] || d in daily[1..];
      if daily[0].userId == uid && daily[0].id == id then rest else [daily[0]] + rest
  }

  /** The entries that stay keep their order: removal distributes over
      concatenation. */
  lemma {:induction false} RemoveEntryAppend(a: seq<Daily>, b: seq<Daily>, uid: string, id: string)
    ensures RemoveEntry(a + b, uid, id) == RemoveEntry(a, uid, id) + RemoveEntry(b, uid, id)
    decreases |a|
  {
    if a == [] {
      assert a + b == b;
    } else {
      assert (a + b)[0] == a[0];
      assert (a + b)[1..] == a[1..] + b;
      RemoveEntryAppend(a[1..], b, uid, id);
    }
  }

  /** `removeDaily`: drops the caller's entries with this id and nothing else. */
  function RemoveDaily(db: DevDb, uid: string, id: string, now: Time): (r: DevDb)
    ensures r.tasks == EnsureDevSeed(db, uid, now).tasks
    ensures r.daily == RemoveEntry(db.daily, uid, id)
    ensures forall d :: d in r.daily <==> d in db.daily && !(d.userId == uid && d.id == id)
  {
    var seeded := EnsureDevSeed(db, uid, now);
    DevDb(seeded.tasks, RemoveEntry(seeded.daily, uid, id))
  }

  /** Removing one user's entry leaves every other user's entries, in their
      order, exactly as they were; and a removal that matches nothing
      changes nothing. */
  lemma {:induction false} RemoveDailyKeepsOthers(daily: seq<Daily>, uid: string, id: string, other: string)
    requires other != uid
    ensures DailyOf(RemoveEntry(daily, uid, id), other) == DailyOf(daily, other)
    ensures (forall j :: 0 <= j < |daily| ==> !(daily[j].userId == uid && daily[j].id == id)) ==>
              RemoveEntry(daily, uid, id) == daily
    decreases |daily|
  {
    if daily != [] {
      RemoveDailyKeepsOthers(daily[1..], uid, id, other);
      var rest := RemoveEntry(daily[1..], uid, id);
      if !(daily[0].userId == uid && daily[0].id == id) {
        var r := [daily[0]] + rest;
        assert r[0] == daily[0] && r[1..] == rest;
        assert daily == [daily[0]] + daily[1..];
      }
    }
  }

  /** Taking the caller's entries and then removing one of them gives what
      removing it from the whole store and then taking the caller's entries
      gives. */
  lemma {:induction false} RemoveEntryOwnDaily(daily: seq<Daily>, uid: string, id: string)
    ensures DailyOf(RemoveEntry(daily, uid, id), uid) == RemoveEntry(DailyOf(daily, uid), uid, id)
    decreases |daily|
  {
    if daily != [] {
      RemoveEntryOwnDaily(daily[1..], uid, id);
      var d := daily[0];
      assert daily == [d] + daily[1..];
      RemoveEntryAppend([d], daily[1..], uid, id);
      DailyOfAppend([d], daily[1..], uid);
      DailyOfAppend(RemoveEntry([d], uid, id), RemoveEntry(daily[1..], uid, id), uid);
      RemoveEntryAppend(DailyOf([d], uid), DailyOf(daily[1..], uid), uid, id);
    }
  }

  /** The caller's list is newest first: an added entry is read back at the
      head, in front of the caller's earlier entries in their order. */
  lemma {:induction false} AddThenGetDaily(db: DevDb, uid: string, text: string, id: string, t1: Time, t2: Time)
    ensures var added := AddDaily(db, uid, text, id, t1);
            GetDaily(added.db, uid, t2).value == [added.value] + GetDaily(db, uid, t1).value
  {
    var added := AddDaily(db, uid, text, id, t1);
    DailyOfAppend([added.value], db.daily, uid);
  }

  /** Removing an entry and reading the caller's list again gives the earlier
      list without that entry, the rest in their order. */
  lemma {:induction false} RemoveThenGetDaily(db: DevDb, uid: string, id: string, t1: Time, t2: Time)
    ensures GetDaily(RemoveDaily(db, uid, id, t1), uid, t2).value ==
              RemoveEntry(GetDaily(db, uid, t1).value, uid, id)
  {
    RemoveEntryOwnDaily(db.daily, uid, id);
  }
}

=== FILE: html.dfy ===
/**
  `escapeHtml`, which the role-action pages apply to every value they embed
  in HTML. The source runs four global replacements in a row; the model
  keeps that shape and proves it equal to escaping each character on its own.
 */
module Html {

  /** `s.replace(/c/g, rep)`: every occurrence of `c` becomes `rep`. */
  function ReplaceAll(s: string, c: char, rep: string): (r: string)
    ensures c !in rep ==> c !in r
    ensures forall d :: d in r ==> d in s || d in rep
    ensures c !in s ==> r == s
    ensures |s| == 1 ==> r == if s[0] == c then rep else s
  {
    if s == [] then []
    else (if s[0] == c then rep else [s[0]]) + ReplaceAll(s[1..], c, rep)
  }

  /** Replacement works character by character: it distributes over
      concatenation, so with the one-character case above every other
      character is kept, in order. */
  lemma {:induction false} ReplaceAllAppend(a: string, b: string, c: char, rep: string)
    ensures ReplaceAll(a + b, c, rep) == ReplaceAll(a, c, rep) + ReplaceAll(b, c, rep)
    decreases |a|
  {
    if a == [] {
      assert a + b == b;
    } else {
      assert (a + b)[0] == a[0];
      assert (a + b)[1..] == a[1..] + b;
      ReplaceAllAppend(a[1..], b, c, rep);
    }
  }

  /** `escapeHtml`: `&` first, then `<`, `>` and `"`. The result holds no
      raw `<`, `>` or `"`, and a string with none of the four special
      characters comes back unchanged. */
  function EscapeHtml(s: string): (r: string)
    ensures '<' !in r && '>' !in r && '"' !in r
    ensures '&' !in s && '<' !in s && '>' !in s && '"' !in s ==> r == s
  {
    var s1 := ReplaceAll(s, '&', "&amp;");
    var s2 := ReplaceAll(s1, '<', "&lt;");
    var s3 := ReplaceAll(s2, '>', "&gt;");
    var s4 := ReplaceAll(s3, '"', "&quot;");
    assert '<' !in s3 by {
      assert forall d :: d in s3 ==> d in s2 || d in "&gt;";
    }
    assert '<' !in s4 && '>' !in s4 by {
      assert forall d :: d in s4 ==> d in s3 || d in "&quot;";
    }
    s4
  }

  /** The entity for one character; every other character stands for itself. */
  function EscapeChar(c: char): string {
    match c
    case '&' => "&amp;"
    case '<' => "&lt;"
    case '>' => "&gt;"
    case '"' => "&quot;"
    case _ => [c]
  }

  /** Escaping character by character, the reference for `EscapeHtml`. */
  function EscapeEach(s: string): string {
    if s == [] then [] else EscapeChar(s[0]) + EscapeEach(s[1..])
  }

  lemma EscapeOneChar(c: char)
    ensures EscapeHtml([c]) == EscapeChar(c)
  {
    var s1 := ReplaceAll([c], '&', "&amp;");
    if c == '&' {
      assert s1 == "&amp;";
      assert '<' !in s1 && '>' !in s1 && '"' !in s1;
    } else {
      assert s1 == [c];
      var s2 := ReplaceAll(s1, '<', "&lt;");
      assert s2 == if c == '<' then "&lt;" else [c];
      if c == '<' {
        assert '>' !in s2 && '"' !in s2;
      } else {
        var s3 := ReplaceAll(s2, '>', "&gt;");
        assert s3 == if c == '>' then "&gt;" else [c];
        if c == '>' {
          assert '"' !in s3;
        }
      }
    }
  }

  /** The four passes in a row escape each character independently: the
      later passes never touch what the earlier ones produced. */
  lemma {:induction false} EscapeHtmlIsCharwise(s: string)
    ensures EscapeHtml(s) == EscapeEach(s)
    decreases |s|
  {
    if s != [] {
      var a, b := [s[0]], s[1..];
      assert s == a + b;
      var a1, b1 := ReplaceAll(a, '&', "&amp;"), ReplaceAll(b, '&', "&amp;");
      ReplaceAllAppend(a, b, '&', "&amp;");
      var a2, b2 := ReplaceAll(a1, '<', "&lt;"), ReplaceAll(b1, '<', "&lt;");
      ReplaceAllAppend(a1, b1, '<', "&lt;");
      var a3, b3 := ReplaceAll(a2, '>', "&gt;"), ReplaceAll(b2, '>', "&gt;");
      ReplaceAllAppend(a2, b2, '>', "&gt;");
      ReplaceAllAppend(a3, b3, '"', "&quot;");
      assert EscapeHtml(s) == EscapeHtml(a) + EscapeHtml(b);
      EscapeOneChar(s[0]);
      EscapeHtmlIsCharwise(b);
    }
  }

  /** Reading the entities back, the inverse of escaping. */
  function Unescape(s: string): string
    decreases |s|
  {
    if s == [] then []
    else if |s| >= 5 && s[..5] == "&amp;" then ['&'] + Unescape(s[5..])
    else if |s| >= 4 && s[..4] == "&lt;" then ['<'] + Unescape(s[4..])
    else if |s| >= 4 && s[..4] == "&gt;" then ['>'] + Unescape(s[4..])
    else if |s| >= 6 && s[..6] == "&quot;" then ['"'] + Unescape(s[6..])
    else [s[0]] + Unescape(s[1..])
  }

  /** An escaped `&` reads back as `&`. */
  lemma UnescapeAmp(rest: string)
    ensures Unescape("&amp;" + rest) == ['&'] + Unescape(rest)
  {
    var t := "&amp;" + rest;
    assert t[..5] == "&amp;" && t[5..] == rest;
  }

  /** An escaped `<` reads back as `<`: the entity is not `&amp;`. */
  lemma UnescapeLt(rest: string)
    ensures Unescape("&lt;" + rest) == ['<'] + Unescape(rest)
  {
    var t := "&lt;" + rest;
    assert t[..4] == "&lt;" && t[4..] == rest;
    assert !(|t| >= 5 && t[..5] == "&amp;") by { if |t| >= 5 { assert t[..5][1] == t[1] == 'l'; } }
  }

  /** An escaped `>` reads back as `>`. */
  lemma UnescapeGt(rest: string)
    ensures Unescape("&gt;" + rest) == ['>'] + Unescape(rest)
  {
    var t := "&gt;" + rest;
    assert t[..4] == "&gt;" && t[4..] == rest;
    assert !(|t| >= 5 && t[..5] == "&amp;") by { if |t| >= 5 { assert t[..5][1] == t[1] == 'g'; } }
    assert !(t[..4] == "&lt;") by { assert t[..4][1] == 'g'; }
  }

  /** An escaped `"` reads back as `"`. */
  lemma UnescapeQuot(rest: string)
    ensures Unescape("&quot;" + rest) == ['"'] + Unescape(rest)
  {
    var t := "&quot;" + rest;
    assert t[..6] == "&quot;" && t[6..] == rest;
    assert !(t[..5] == "&amp;") by { assert t[..5][1] == 'q'; }
    assert !(t[..4] == "&lt;") by { assert t[..4][1] == 'q'; }
    assert !(t[..4] == "&gt;") by { assert t[..4][1] == 'q'; }
  }

  /** A character that needs no entity reads back as itself. */
  lemma UnescapePlain(c: char, rest: string)
    requires c != '&'
    ensures Unescape([c] + rest) == [c] + Unescape(rest)
  {
    var t := [c] + rest;
    assert t[0] == c && t[1..] == rest;
  }

  /** Reading back one escaped character and what follows it. */
  lemma UnescapeAt(c: char, rest: string)
    ensures Unescape(EscapeChar(c) + rest) == [c] + Unescape(rest)
  {
    match c
    case '&' => UnescapeAmp(rest);
    case '<' => UnescapeLt(rest);
    case '>' => UnescapeGt(rest);
    case '"' => UnescapeQuot(rest);
    case _ => UnescapePlain(c, rest);
  }

  lemma {:induction false} UnescapeEach(s: string)
    ensures Unescape(EscapeEach(s)) == s
    decreases |s|
  {
    if s != [] {
      UnescapeAt(s[0], EscapeEach(s[1..]));
      UnescapeEach(s[1..]);
      assert s == [s[0]] + s[1..];
    }
  }

  /** Escaping loses nothing: the original is recovered from the page
      text, so two different values never render the same. */
  lemma {:induction false} EscapeHtmlRoundTrip(s: string)
    ensures Unescape(EscapeHtml(s)) == s
  {
    EscapeHtmlIsCharwise(s);
    UnescapeEach(s);
  }
}

=== FILE: invariants.dfy ===
/**
  Facts about every user store the backend can build. Starting from the
  empty store, each request to the auth and admin routes keeps three
  per-account facts and the uniqueness of e-mails; two of the login
  branches are unreachable as a consequence.
 */
module Invariants {
  import opened Common
  import opened Text
  import opened Db
  import opened Tokens
  import opened Auth
  import opened Admin

  /** What every stored account satisfies: 2FA is enabled exactly when a
      confirmed secret is stored, an approved account has no open role
      request, and nothing ever sets `twoFASetupRequired`. */
  predicate Consistent(u: User) {
    && (u.twoFAEnabled <==> Truthy(u.twoFASecret))
    && (u.approved ==> u.requestedRole.None?)
    && !u.twoFASetupRequired
  }

  /** Every account is consistent and no two e-mails are equal ignoring case. */
  predicate Valid(users: seq<User>) {
    && (forall j :: 0 <= j < |users| ==> Consistent(users[j]))
    && (forall j, k :: 0 <= j < k < |users| ==> !SameIgnoringCase(users[j].email, users[k].email))
  }

  /** The oracles the routes consult. */
  datatype Env = Env(decode: Decoder, compare: PasswordCheck, totp: TotpCheck)

  /** One request to the auth or admin routes, with the fresh values the
      handler would draw (hash, id, secret, reset token) already inside. */
  datatype Request =
    | RegisterReq(name: string, email: string, password: string, hash: string, id: string)
    | LoginReq(email: string, password: string)
    | TwoFactorLoginReq(code: string, tempToken: string)
    | SetupReq(header: string, secret: string)
    | VerifyReq(header: string, code: string)
    | ForgotReq(email: string, token: string)
    | ResetReq(token: string, password: string, hash: string)
    | MeReq(header: string)
    | RefreshReq(refreshToken: string)
    | RoleActionReq(token: string)
    | SetRoleReq(header: string, id: string, role: string)
    | DenyRoleReq(header: string, id: string)

  /** The store after one request. Login, the second login step, /me and
      /refresh only read. */
  function Apply(users: seq<User>, env: Env, req: Request, now: Time): (r: seq<User>)
    ensures req.LoginReq? || req.TwoFactorLoginReq? || req.MeReq? || req.RefreshReq? ==> r == users
    ensures |users| <= |r| <= |users| + 1
    ensures |r| == |users| + 1 ==> req.RegisterReq?
  {
    match req
    case RegisterReq(name, email, password, hash, id) => Register(users, name, email, password, hash, id, now).users
    case LoginReq(email, password) => Login(users, email, password, env.compare, now).users
    case TwoFactorLoginReq(code, tempToken) => TwoFactorLogin(users, code, tempToken, env.decode, env.totp, now).users
    case SetupReq(header, secret) => TwoFactorSetup(users, header, env.decode, secret, now).users
    case VerifyReq(header, code) => TwoFactorVerify(users, header, code, env.decode, env.totp, now).users
    case ForgotReq(email, token) => Forgot(users, email, token, now).users
    case ResetReq(token, password, hash) => Reset(users, token, password, hash, now).users
    case MeReq(header) => MeRoute(users, header, env.decode, now).users
    case RefreshReq(refreshToken) => Refresh(users, refreshToken, env.decode, now).users
    case RoleActionReq(token) => RoleAction(users, token, env.decode, now).users
    case SetRoleReq(header, id, role) => SetRole(users, header, env.decode, id, role, now).users
    case DenyRoleReq(header, id) => DenyRole(users, header, env.decode, id, now).users
  }

  /** Replacing one account by a consistent one with the same e-mail keeps
      the store valid. */
  lemma ReplaceKeepsValid(users: seq<User>, r: seq<User>, i: nat)
    requires Valid(users)
    requires |r| == |users| && i < |users|
    requires forall j :: 0 <= j < |users| && j != i ==> r[j] == users[j]
    requires r[i].email == users[i].email && Consistent(r[i])
    ensures Valid(r)
  {
    forall j, k | 0 <= j < k < |r|
      ensures !SameIgnoringCase(r[j].email, r[k].email)
    {
      assert r[j].email == users[j].email && r[k].email == users[k].email;
    }
  }

  /** Registration appends a consistent account whose e-mail is new. */
  lemma RegisterKeepsValid(users: seq<User>, name: string, email: string, password: string,
                           hash: string, id: string, now: Time)
    requires Valid(users)
    ensures Valid(Register(users, name, email, password, hash, id, now).users)
  {
    var r := Register(users, name, email, password, hash, id, now);
    if r.reply.Session? {
      var n := |users|;
      assert r.users[..n] == users;
      forall j, k | 0 <= j < k < |r.users|
        ensures !SameIgnoringCase(r.users[j].email, r.users[k].email)
      {
        assert r.users[j] == users[j];
        if k < n {
          assert r.users[k] == users[k];
        } else {
          assert r.users[k].email == email;
        }
      }
    }
  }

  /** Every request keeps the store valid. */
  lemma {:induction false} ApplyKeepsValid(users: seq<User>, env: Env, req: Request, now: Time)
    requires Valid(users)
    ensures Valid(Apply(users, env, req, now))
  {
    var r := Apply(users, env, req, now);
    match req {
      case RegisterReq(name, email, password, hash, id) =>
        RegisterKeepsValid(users, name, email, password, hash, id, now);
      case SetupReq(header, secret) =>
        if TwoFactorSetup(users, header, env.decode, secret, now).reply.Enrollment? {
          ReplaceKeepsValid(users, r, IdIndex(users, AccessClaims(header, env.decode, now).value.sub).value);
        }
      case VerifyReq(header, code) =>
        if TwoFactorVerify(users, header, code, env.decode, env.totp, now).reply.Done? {
          ReplaceKeepsValid(users, r, IdIndex(users, AccessClaims(header, env.decode, now).value.sub).value);
        }
      case ForgotReq(email, token) =>
        if email != "" && EmailIndex(users, email).Some? {
          ReplaceKeepsValid(users, r, EmailIndex(users, email).value);
        }
      case ResetReq(token, password, hash) =>
        if Reset(users, token, password, hash, now).reply.Done? {
          var u := FindUserByResetToken(users, token).value;
          ReplaceKeepsValid(users, r, IdIndex(users, u.id).value);
        }
      case RoleActionReq(token) =>
        if !RoleAction(users, token, env.decode, now).page.ErrorPage? {
          var c := Verify(ActionKey, env.decode(token), now).value;
          ReplaceKeepsValid(users, r, IdIndex(users, c.sub).value);
        }
      case SetRoleReq(header, id, role) =>
        if SetRole(users, header, env.decode, id, role, now).reply.Ok? {
          ReplaceKeepsValid(users, r, IdIndex(users, id).value);
        }
      case DenyRoleReq(header, id) =>
        if DenyRole(users, header, env.decode, id, now).reply.Ok? {
          ReplaceKeepsValid(users, r, IdIndex(users, id).value);
        }
      case _ =>
    }
  }

  /** The store after a sequence of requests, each at its own time. */
  function Run(users: seq<User>, env: Env, reqs: seq<(Request, Time)>): (r: seq<User>)
    ensures |users| <= |r| <= |users| + |reqs|
    decreases |reqs|
  {
    if reqs == [] then users
    else Run(Apply(users, env, reqs[0].0, reqs[0].1), env, reqs[1..])
  }

  /** Every store reachable from the empty one is valid. */
  lemma {:induction false} RunKeepsValid(users: seq<User>, env: Env, reqs: seq<(Request, Time)>)
    requires Valid(users)
    ensures Valid(Run(users, env, reqs))
    decreases |reqs|
  {
    if reqs != [] {
      ApplyKeepsValid(users, env, reqs[0].0, reqs[0].1);
      RunKeepsValid(Apply(users, env, reqs[0].0, reqs[0].1), env, reqs[1..]);
    }
  }

  /** On a valid store login asks for a TOTP code exactly when the account
      has 2FA enabled, and its `requires2FASetup` branch is dead code: no
      reachable account has `twoFASetupRequired`. */
  lemma {:induction false} LoginOnValidStore(users: seq<User>, env: Env, reqs: seq<(Request, Time)>,
                          email: string, password: string, now: Time)
    ensures var s := Run([], env, reqs);
            var r := Login(s, email, password, env.compare, now);
            && (r.reply.Session? ==> !r.reply.requires2FASetup)
            && (!r.reply.Fail? ==> (r.reply.Challenge? <==> FindUserByEmail(s, email).value.twoFAEnabled))
  {
    RunKeepsValid([], env, reqs);
    var s := Run([], env, reqs);
    if FindUserByEmail(s, email).Some? {
      assert Consistent(s[EmailIndex(s, email).value]);
    }
  }

  /** On a valid store an e-mail names at most one account, so the lookup
      by e-mail finds the only account it can mean. */
  lemma EmailNamesOneAccount(users: seq<User>, email: string, j: nat)
    requires Valid(users)
    requires j < |users| && SameIgnoringCase(users[j].email, email)
    ensures EmailIndex(users, email) == Some(j)
  {
    var i := EmailIndex(users, email).value;
    if i != j {
      SameIgnoringCaseIsEquivalence(users[i].email, email, users[j].email);
      SameIgnoringCaseIsEquivalence(users[j].email, email, users[i].email);
      assert false;
    }
  }
}

=== FILE: role_guard.dfy ===
/**
  The `requireRole(...allowed)` middleware as a pure decision on the
  request's Authorization header.
 */
module RoleGuard {
  import opened Common
  import opened Tokens

  /** Reject with a status (401 or 403), or pass with the token payload as `req.user`. */
  datatype Decision = Reject(status: nat) | Pass(user: Claims)

  /** `allowed.includes(payload.role)`: a payload without a role matches nothing. */
  predicate RoleAllowed(allowed: seq<string>, role: Option<string>) {
    role.Some? && role.value in allowed
  }

  /** `requireRole`: 401 without a bearer token or when the access secret
      rejects it; 403 when a non-empty allow-list lacks the payload's role;
      otherwise pass with the payload. An empty list admits every role. */
  function RequireRole(header: string, allowed: seq<string>, decode: Decoder, now: Time): (d: Decision)
    ensures BearerToken(header).None? ==> d == Reject(Unauthorized)
    ensures d == Reject(Unauthorized) <==> AccessClaims(header, decode, now).None?
    ensures d == Reject(Forbidden) <==>
              && AccessClaims(header, decode, now).Some?
              && |allowed| > 0
              && !RoleAllowed(allowed, AccessClaims(header, decode, now).value.role)
    ensures d.Reject? ==> d.status == Unauthorized || d.status == Forbidden
    ensures d.Pass? ==> d.user == AccessClaims(header, decode, now).value
    ensures d.Pass? ==> |allowed| == 0 || RoleAllowed(allowed, d.user.role)
  {
    match AccessClaims(header, decode, now)
    case None => Reject(Unauthorized)
    case Some(c) =>
      if |allowed| > 0 && !RoleAllowed(allowed, c.role) then Reject(Forbidden) else Pass(c)
  }

  /** The stage token, which carries no role, never passes a guard that lists
      roles; with an empty list it passes like any access token. */
  lemma StageTokenPassesOnlyOpenGuards(id: string, s: string, decode: Decoder, allowed: seq<string>,
                                       issued: Time, now: Time)
    requires s != "" && decode(s) == Sign(AccessKey, StageClaims(id), StageTtl, issued)
    requires Seconds(now) < Seconds(issued) + StageTtl
    ensures RequireRole(BearerPrefix + s, allowed, decode, now) ==
              if |allowed| == 0 then Pass(StageClaims(id)) else Reject(Forbidden)
  {
    AccessCheckAcceptsStageToken(id, s, decode, issued, now);
  }
}

=== FILE: router_guard.dfy ===
/**
  The single-page client's `router.beforeEach` guard as a pure decision
  from the resolved target route and the client's auth state to "allow" or
  "redirect to a named route".
 */
module RouterGuard {
  import opened Common
  import Auth

  /** A stored user field read with `=== true` / `=== false`: anything that
      is not a boolean (missing, null, a string) is `Unset`, which neither
      comparison accepts. */
  datatype Flag = Yes | No | Unset

  /** The user object the client keeps (the last login or 2FA response). */
  datatype ClientUser = ClientUser(twoFAEnabled: Flag, twoFASetupRequired: Flag, approved: Flag)

  /** `isAuthenticated` is "an access token is stored"; `user` may be null. */
  datatype AuthState = AuthState(isAuthenticated: bool, user: Option<ClientUser>)

  /** The route being navigated to, after the table's own redirects
      (`/` and unknown paths end at `dashboard`). */
  datatype Target = Target(name: string, requiresAuth: bool, fullPath: string)

  datatype Decision = Allow | Redirect(name: string, redirect: Option<string>)

  const Login: string := "login"
  const Dashboard: string := "dashboard"
  const Profile: string := "profile"
  const TwoFASetup: string := "twofa-setup"
  const PendingApproval: string := "pending-approval"

  /** The named routes of the table and the two that require a session. */
  const RouteNames: seq<string> := [Login, "register", "forgot", "reset", TwoFASetup, PendingApproval, Dashboard, Profile]
  const ProtectedRoutes: seq<string> := [Dashboard, Profile]

  /** The routes an unapproved user may still open. */
  const Bypass: seq<string> := [TwoFASetup, PendingApproval, Profile]

  /** A target the route table can produce. */
  predicate InTable(to: Target) {
    to.name in RouteNames && to.requiresAuth == (to.name in ProtectedRoutes)
  }

  /** The table entry for a route name, reached with its path. */
  function RouteNamed(name: string): (to: Target)
    requires name in RouteNames
    ensures InTable(to) && to.name == name
  {
    Target(name, name in ProtectedRoutes, "/" + name)
  }

  predicate Is(f: Flag, b: bool) {
    if b then f == Yes else f == No
  }

  /** `beforeEach`, its four rules in order; the first that applies wins. */
  function Guard(to: Target, auth: AuthState): (d: Decision)
    ensures to.requiresAuth && !auth.isAuthenticated ==> d == Redirect(Login, Some(to.fullPath))
    ensures !auth.isAuthenticated ==> d == Allow || d == Redirect(Login, Some(to.fullPath))
    ensures d.Redirect? && d.name == Login ==> !auth.isAuthenticated && to.requiresAuth
    ensures d.Redirect? && d.name != Login ==> d.redirect.None? && auth.isAuthenticated && auth.user.Some?
    ensures auth.isAuthenticated && auth.user.Some? && to.name == TwoFASetup
            && Is(auth.user.value.twoFAEnabled, true) && Is(auth.user.value.twoFASetupRequired, false) ==>
              d == Redirect(Dashboard, None)
    ensures auth.isAuthenticated && auth.user.Some? && Is(auth.user.value.twoFASetupRequired, true)
            && to.name != TwoFASetup ==>
              d == Redirect(TwoFASetup, None)
    ensures auth.isAuthenticated && auth.user.Some? && !Is(auth.user.value.twoFASetupRequired, true)
            && Is(auth.user.value.approved, false) && to.name !in Bypass ==>
              d == Redirect(PendingApproval, None)
    ensures d == Redirect(PendingApproval, None) ==> auth.user.Some? && Is(auth.user.value.approved, false)
    ensures d == Allow <==>
              && !(to.requiresAuth && !auth.isAuthenticated)
              && (auth.isAuthenticated && auth.user.Some? ==>
                    && !(to.name == TwoFASetup && Is(auth.user.value.twoFAEnabled, true)
                         && Is(auth.user.value.twoFASetupRequired, false))
                    && !(Is(auth.user.value.twoFASetupRequired, true) && to.name != TwoFASetup)
                    && !(Is(auth.user.value.approved, false) && to.name !in Bypass))
  {
    if to.requiresAuth && !auth.isAuthenticated then Redirect(Login, Some(to.fullPath))
    else if !auth.isAuthenticated || auth.user.None? then Allow
    else
      var u := auth.user.value;
      if to.name == TwoFASetup && Is(u.twoFAEnabled, true) && Is(u.twoFASetupRequired, false) then
        Redirect(Dashboard, None)
      else if Is(u.twoFASetupRequired, true) && to.name != TwoFASetup then Redirect(TwoFASetup, None)
      else if Is(u.approved, false) && to.name !in Bypass then Redirect(PendingApproval, None)
      else Allow
  }

  /** A redirect never points back at the route that was asked for, so the
      guard cannot bounce a navigation onto itself. */
  lemma RedirectLeavesTarget(to: Target, auth: AuthState)
    requires InTable(to)
    ensures Guard(to, auth).Redirect? ==> Guard(to, auth).name != to.name
  {
  }

  /** Following the guard's redirects settles: at most two redirects in a
      row, after which the route reached is allowed. */
  lemma RedirectsSettle(to: Target, auth: AuthState)
    ensures var d1 := Guard(to, auth);
            d1.Redirect? ==>
              && d1.name in RouteNames
              && var d2 := Guard(RouteNamed(d1.name), auth);
              d2.Redirect? ==>
                && d2.name in RouteNames
                && d2 != d1
                && Guard(RouteNamed(d2.name), auth) == Allow
  {
  }

  /** The user a login or 2FA response hands the client: the backend's
      profile carries no `approved` field, so it reads as `Unset`. */
  function ClientUserOf(p: Auth.Profile): (u: ClientUser)
    ensures u.approved == Unset
    ensures Is(u.twoFAEnabled, p.twoFAEnabled) && Is(u.twoFASetupRequired, p.twoFASetupRequired)
  {
    ClientUser(if p.twoFAEnabled then Yes else No, if p.twoFASetupRequired then Yes else No, Unset)
  }

  /** With the user the backend's login answers with, the approval rule never
      fires: no navigation is redirected to `pending-approval`. */
  lemma ApprovalGateNeverFiresOnBackendProfile(to: Target, p: Auth.Profile)
    ensures Guard(to, AuthState(true, Some(ClientUserOf(p)))) != Redirect(PendingApproval, None)
  {
  }
}

=== FILE: text.dfy ===
/**
  The two string functions the server relies on: `toLowerCase` for
  case-insensitive e-mail comparison and `trim` for log texts.
 */
module Text {

  /** `toLowerCase` on one character, restricted to the ASCII letters. */
  function Lower(c: char): char {
    if 'A' <= c <= 'Z' then (c as int + 32) as char else c
  }

  function ToLower(s: string): (r: string)
    ensures |r| == |s|
    ensures forall i :: 0 <= i < |s| ==> r[i] == Lower(s[i])
  {
    seq(|s|, i requires 0 <= i < |s| => Lower(s[i]))
  }

  /** `a.toLowerCase() === b.toLowerCase()` */
  predicate SameIgnoringCase(a: string, b: string) {
    ToLower(a) == ToLower(b)
  }

  /** Case-insensitive equality is an equivalence relation, so "some stored
      e-mail matches" does not depend on which side is normalised. */
  lemma SameIgnoringCaseIsEquivalence(a: string, b: string, c: string)
    ensures SameIgnoringCase(a, a)
    ensures SameIgnoringCase(a, b) ==> SameIgnoringCase(b, a)
    ensures SameIgnoringCase(a, b) && SameIgnoringCase(b, c) ==> SameIgnoringCase(a, c)
  {
  }

  /** ECMAScript WhiteSpace and LineTerminator code points, which `trim` removes. */
  predicate IsSpace(c: char) {
    var n := c as int;
    n == 0x09 || n == 0x0A || n == 0x0B || n == 0x0C || n == 0x0D || n == 0x20
    || n == 0xA0 || n == 0x1680 || (0x2000 <= n <= 0x200A) || n == 0x2028 || n == 0x2029
    || n == 0x202F || n == 0x205F || n == 0x3000 || n == 0xFEFF
  }

  /** Drops leading white space: the result is a suffix of `s` preceded only by spaces. */
  function TrimStart(s: string): (r: string)
    ensures |r| <= |s| && r == s[|s| - |r|..]
    ensures forall j :: 0 <= j < |s| - |r| ==> IsSpace(s[j])
    ensures r == [] || !IsSpace(r[0])
    decreases |s|
  {
    if |s| > 0 && IsSpace(s[0]) then TrimStart(s[1..]) else s
  }

  /** Drops trailing white space: the result is a prefix of `s` followed only by spaces. */
  function TrimEnd(s: string): (r: string)
    ensures |r| <= |s| && r == s[..|r|]
    ensures forall j :: |r| <= j < |s| ==> IsSpace(s[j])
    ensures r == [] || !IsSpace(r[|r| - 1])
    decreases |s|
  {
    if |s| > 0 && IsSpace(s[|s| - 1]) then TrimEnd(s[..|s| - 1]) else s
  }

  /** `r` is the part of `s` starting at `i`, and everything of `s` around
      it is white space. */
  predicate TrimmedAt(s: string, r: string, i: int) {
    && 0 <= i <= |s| - |r| && r == s[i..i + |r|]
    && (forall j :: 0 <= j < i ==> IsSpace(s[j]))
    && (forall j :: i + |r| <= j < |s| ==> IsSpace(s[j]))
  }

  /** `String.prototype.trim` */
  function Trim(s: string): (r: string)
    ensures |r| <= |s|
    ensures r == [] <==> forall j :: 0 <= j < |s| ==> IsSpace(s[j])
    ensures r != [] ==> !IsSpace(r[0]) && !IsSpace(r[|r| - 1])
    ensures exists i :: TrimmedAt(s, r, i)
  {
    var t := TrimStart(s);
    var r := TrimEnd(t);
    assert r != [] ==> r[0] == t[0];
    var i := |s| - |t|;
    assert r == s[i..i + |r|];
    forall j | i + |r| <= j < |s|
      ensures IsSpace(s[j])
    {
      assert s[j] == t[j - i];
    }
    assert TrimmedAt(s, r, i);
    r
  }

  /** Trimming twice is trimming once: the routes trim a text that the
      daily-log store trims again. */
  lemma {:induction false} TrimIdempotent(s: string)
    ensures Trim(Trim(s)) == Trim(s)
  {
    var r := Trim(s);
    if r != [] {
      assert TrimStart(r) == r;
      assert TrimEnd(r) == r;
    }
  }
}

=== FILE: tokens.dfy ===
/**
  The JSON Web Tokens of the backend. Signing and verification are
  abstracted as perfect: a token is the claims it carries, the secret it was
  signed with and its expiry. A string presented by a client becomes a token
  through a decoder given as a parameter; a string that is not a genuine
  token decodes to `Unreadable`, which no secret verifies.
 */
module Tokens {
  import opened Common

  /** The signing secrets: JWT_ACCESS_SECRET, JWT_REFRESH_SECRET, ACTION_LINK_SECRET. */
  datatype Key = AccessKey | RefreshKey | ActionKey

  /** The payload fields any of the backend's tokens may carry. */
  datatype Claims = Claims(
    sub: string,
    email: Option<string>,
    role: Option<string>,
    twoFAStage: bool,
    act: Option<string>,
    req: Option<string>)

  datatype Jwt = Signed(key: Key, claims: Claims, exp: int) | Unreadable

  /** Turns the string a client sent into the token it encodes. */
  type Decoder = string -> Jwt

  /** Default lifetimes in seconds: access '15m', refresh '30d', the 2FA stage
      token '3m', and the role-action link 172800 s (48 h). */
  const AccessTtl: nat := 15 * 60
  const RefreshTtl: nat := 30 * 24 * 60 * 60
  const StageTtl: nat := 3 * 60
  const ActionTtl: nat := 172800

  /** The JWT clock: whole seconds, `Math.floor(Date.now() / 1000)`. */
  function Seconds(now: Time): int {
    now / 1000
  }

  /** `jwt.sign(claims, key, { expiresIn: ttl })` at time `now`. */
  function Sign(key: Key, claims: Claims, ttl: nat, now: Time): Jwt {
    Signed(key, claims, Seconds(now) + ttl)
  }

  /** `jwt.verify(token, key)`: the claims of a token signed with `key` whose
      expiry lies strictly after the current second; null where the library
      throws. */
  function Verify(key: Key, t: Jwt, now: Time): Option<Claims> {
    if t.Signed? && t.key == key && Seconds(now) < t.exp then Some(t.claims) else None
  }

  /** A token verifies exactly under the secret that signed it, and exactly
      until its lifetime has run out. */
  lemma SignThenVerify(key: Key, other: Key, c: Claims, ttl: nat, issued: Time, now: Time)
    ensures Verify(other, Sign(key, c, ttl, issued), now).Some? <==>
              other == key && Seconds(now) < Seconds(issued) + ttl
    ensures Verify(other, Sign(key, c, ttl, issued), now).Some? ==>
              Verify(other, Sign(key, c, ttl, issued), now).value == c
  {
  }

  /** `{ sub, email, role }`, the payload of session tokens. */
  function SessionClaims(id: string, email: string, role: string): Claims {
    Claims(id, Some(email), Some(role), false, None, None)
  }

  /** `{ sub, twoFAStage: true }`, the payload of the 2FA stage token. */
  function StageClaims(id: string): Claims {
    Claims(id, None, None, true, None, None)
  }

  /** `{ sub, act, req }`, the payload of a role-action link token. */
  function ActionClaims(id: string, action: string, requestedRole: string): Claims {
    Claims(id, None, None, false, Some(action), Some(requestedRole))
  }

  datatype TokenPair = TokenPair(access: Jwt, refresh: Jwt)

  /** `signTokens`: one access token and one refresh token for the same payload. */
  function SignTokens(c: Claims, now: Time): (r: TokenPair)
    ensures Verify(AccessKey, r.access, now) == Some(c)
    ensures Verify(RefreshKey, r.refresh, now) == Some(c)
    ensures Verify(RefreshKey, r.access, now).None? && Verify(AccessKey, r.refresh, now).None?
    ensures forall t: Time :: Verify(AccessKey, r.access, t).Some? <==> Seconds(t) < Seconds(now) + AccessTtl
    ensures forall t: Time :: Verify(RefreshKey, r.refresh, t).Some? <==> Seconds(t) < Seconds(now) + RefreshTtl
  {
    TokenPair(Sign(AccessKey, c, AccessTtl, now), Sign(RefreshKey, c, RefreshTtl, now))
  }

  /** `signRoleActionToken`, which signs with the action-link secret. */
  function SignRoleActionToken(id: string, requestedRole: string, action: string, now: Time): (t: Jwt)
    ensures Verify(ActionKey, t, now) == Some(ActionClaims(id, action, requestedRole))
    ensures Verify(AccessKey, t, now).None? && Verify(RefreshKey, t, now).None?
    ensures forall later: Time :: Verify(ActionKey, t, later).Some? <==> Seconds(later) < Seconds(now) + ActionTtl
  {
    Sign(ActionKey, ActionClaims(id, action, requestedRole), ActionTtl, now)
  }

  const BearerPrefix: string := "Bearer "

  /** `auth.startsWith("Bearer ") ? auth.slice(7) : null`, then `if (!token)`:
      the token after the scheme, or null when the scheme is missing or
      nothing follows it. A missing header is the empty string. */
  function BearerToken(header: string): (r: Option<string>)
    ensures r.Some? <==> |header| > 7 && header[..7] == BearerPrefix
    ensures r.Some? ==> r.value != "" && header == BearerPrefix + r.value
  {
    if |header| > 7 && header[..7] == BearerPrefix then Some(header[7..]) else None
  }

  /** The header a client builds from a token is read back as that token. */
  lemma BearerRoundTrip(token: string)
    ensures BearerToken(BearerPrefix + token) == if token == "" then None else Some(token)
  {
    var h := BearerPrefix + token;
    assert h[..7] == BearerPrefix;
    if token != "" {
      assert h[7..] == token;
    }
  }

  /** Reads the bearer token of a request and verifies it with the access
      secret (`verifyAccess`); null on any failure. */
  function AccessClaims(header: string, decode: Decoder, now: Time): (r: Option<Claims>)
    ensures r.Some? ==> BearerToken(header).Some?
    ensures r.Some? <==> && BearerToken(header).Some?
                         && Verify(AccessKey, decode(BearerToken(header).value), now).Some?
    ensures r.Some? ==> r.value == decode(BearerToken(header).value).claims
  {
    match BearerToken(header)
    case None => None
    case Some(t) => Verify(AccessKey, decode(t), now)
  }

  /** What a client presenting `t` in the Authorization header gets through
      `verifyAccess`: any token signed with the access secret that is still
      live, which includes the 2FA stage token. */
  lemma AccessCheckAcceptsStageToken(id: string, s: string, decode: Decoder, issued: Time, now: Time)
    requires s != "" && decode(s) == Sign(AccessKey, StageClaims(id), StageTtl, issued)
    requires Seconds(now) < Seconds(issued) + StageTtl
    ensures AccessClaims(BearerPrefix + s, decode, now) == Some(StageClaims(id))
  {
    BearerRoundTrip(s);
  }
}
